=== FILE: README.md ===
# MUSC faculty directory scraper — a Dafny model

This project models the core of `musc/musc.py`, a script in two phases.

The first phase crawls the MUSC faculty directory one letter at a time. For each letter A–Z it
reads the listing page by page and follows the pager's "next" control. It stops as soon as a
page brings no name it has not already seen. Each letter's rows go to a partition file
`json/PAGE_<letter>.json`. A letter whose crawl raises is reported and skipped.

The second phase reads the 26 partition files back, tagging every row with its
`directory_page`. For each row it then:

- derives a local file name from the photo URL;
- downloads the photo unless a file of that name already exists;
- predicts gender and ethnicity from the name, and age, gender and race from the photo;
- appends the merged row to the results table.

The modules follow the script's structure:

| module | file | what it holds |
|---|---|---|
| `Base` | base.dfy | `Option`, `Result` (the exception that escaped a step), `Reply` (an external call that may raise) |
| `Seqs` | seqs.dfy | order-preserving filter, subsequence order, set sizes |
| `Records` | records.dfy | a directory row, a row tagged with its letter, the letters A–Z |
| `Crawl` | crawl.dfy | one letter's crawl loop; a declarative reference (accepted pages, where the crawl stops or fails) and the proofs that the loop matches it |
| `Partitions` | partitions.dfy | the letter-by-letter orchestration with per-letter failure isolation, and `load_data` |
| `Images` | images.dfy | basename and sanitising, the image path, the existence cache, the bounded retry |
| `Names` | names.dfy | `str.split()` and the `last, first, *_` unpacking with commas removed |
| `Enrich` | enrich.dfy | `predict_image_demographics`, `predict_demographics`, and the three-way row merge |
| `Pipeline` | pipeline.dfy | the record loop, and the whole script |

External effects are parameters:

- The browser is a `Listing`: the sequence of pages the pager would show for one letter. A page
  either yields its rows or fails to load. Page `i` has a next control exactly when a page
  `i + 1` exists.
- The partition files are a map from letter to rows, and `Disk` keeps files from earlier runs.
- The images directory is a set of file names with a count of downloads started.
- The network is a function from URL and attempt number to the outcome of that attempt.
- The raw backoff schedule is a function, clamped by the model.
- The prediction libraries are functions in `Services`. The ethnicity models and the face
  analyser may raise.
- `predict_gender` is the field `Services.genderOf`. `predict_ethnicity`
  (musc/musc.py:71-74) is `Enrich.PredictEthnicity`, which chooses the full-name model when a
  first name is present and the last-name model otherwise.

Behaviours of the script a reader may not expect, kept as written:

- The sanitising character set is the literal `"-_.%s%s"` formatted with letters and digits.
  `%` is therefore NOT kept.
- Rows on an accepted page are appended whole, so names may repeat within a partition.
- The name split and the ethnicity model are not guarded. If either raises, the record loop
  stops, and so does the script.
- A row without an image URL reaches `'NoImageProvided.png' in None`, which raises and ends
  the run.
- A failed download leaves the already-created empty file behind. A later run treats that
  file as cached.
- A URL whose basename has no allowed character, or is `.` or `..`, names the images directory
  or its parent. That path always exists, so nothing is downloaded and the directory's path is
  handed to the face analyser.
- Every exception `requests.get` raises is retried, including the one a malformed URL raises
  on each attempt. A response of any status counts as delivered.

## Model

| member | source | states |
|---|---|---|
| Crawl.CrawlFrom | musc/musc.py:54-61 | a normal end returns the accumulated rows extended, never shortened; a failure names a page at or after the start that failed to load |
| Crawl.CrawlPartition | musc/musc.py:53-61 | a letter's crawl raises only at a page that failed to load; a first page that fails makes it raise at page 0; an empty first page ends it with no rows |
| Crawl.CrawlCharacterised | musc/musc.py:54-61 | the crawl succeeds with the rows of exactly the accepted pages iff the reference says it stops there, and fails at page k iff page k is the first failure after accepted pages |
| Crawl.CrawlLoop | musc/musc.py:54-61 | the `while True` loop as written returns the same outcome the reference predicts: stop on an all-seen page or at the last page, raise on a page that fails to load |
| Crawl.StopDecision | musc/musc.py:56-57 | the crawl keeps what it has, appending nothing, iff every row on the page has an already-seen name; an empty page always stops it; otherwise the whole page is appended |
| Crawl.FirstPageAccepted | musc/musc.py:55-57 | a non-empty first page is always kept whole, at the head of the letter's output |
| Crawl.AcceptedPagesAddNames | musc/musc.py:56-57 | every accepted page brings a new name, so after k accepted pages there are at least k distinct names |
| Crawl.RepeatedPageEndsCrawl | musc/musc.py:54-60 | a next page that repeats the previous one ends the crawl with one copy of the rows |
| Crawl.MixedPageKeepsRepeats | musc/musc.py:56-57 | a page mixing a seen name with a new one is appended whole, so the output repeats the seen name |
| Records.LettersFrom | musc/musc.py:49 | the letters from the k-th on are 26 - k consecutive character codes counted up from `A` + k, so the partitions are A to Z in order |
| Partitions.LettersAscending | musc/musc.py:49 | the 26 letters are strictly ascending, hence distinct |
| Partitions.LetterIsNew | musc/musc.py:49 | each letter differs from all letters before it |
| Partitions.CrawlLog | musc/musc.py:49-63 | the log has one entry per letter in A–Z order, and entry i is the outcome of crawling listing i; the per-letter `try`/`except` isolates control flow, so a letter that raises does not stop the later letters from being crawled |
| Partitions.CrawlFiles | musc/musc.py:49-63 | after the crawl phase the letters with a file are exactly those that had one before and those whose crawl ended normally |
| Partitions.MissingAfterCrawl | musc/musc.py:62-63 | after the crawl phase a letter has no file iff its crawl raised and no earlier run had left its file |
| Partitions.CrawlLettersFiles | musc/musc.py:51-63 | after the crawl phase, a successful letter's file holds exactly its rows; a failed letter's file is untouched, whether present or absent; every other file is untouched |
| Partitions.CrawlLettersFile | musc/musc.py:51-62 | after the first n letters, letter i's file holds its crawled rows if its crawl succeeded, and is as before (or still absent) if it raised |
| Partitions.CrawlLettersOthers | musc/musc.py:49-63 | the crawl phase never touches the file of a letter it has not reached |
| Partitions.CrawlLetterStep | musc/musc.py:62 | crawling one letter changes no other letter's file |
| Partitions.SelectTag | musc/musc.py:100-101 | selecting a letter from one file's tagged rows gives back the file's rows, in order, when the tag is that letter, and nothing otherwise |
| Partitions.LoadLetters | musc/musc.py:97-102 | loading succeeds iff every letter's file exists; otherwise it raises on the first missing letter; the output has as many rows as the files together, each tagged with a loaded letter |
| Partitions.LoadThenSelect | musc/musc.py:97-102 | the rows tagged with a loaded letter are exactly that letter's file, in order, and no row is tagged with a letter not loaded: nothing lost, duplicated, reordered or mis-tagged |
| Partitions.LoadOrdered | musc/musc.py:99-101 | output rows are grouped by letter in A–Z order (tags never decrease) |
| Partitions.FailedLetterBreaksFreshLoad | musc/musc.py:62-63 | on an empty data directory, a single letter whose crawl raised leaves no file, so `load_data` raises |
| Partitions.FreshLoadRecoversCrawl | musc/musc.py:49-102 | if `load_data` succeeds after a first crawl into an empty data directory, every letter's crawl succeeded and each letter's loaded rows are exactly its crawled rows, in order |
| Partitions.FreshLetterRecovered | musc/musc.py:62-101 | for one letter: a successful first-run load implies that letter's crawl succeeded and its loaded rows are its crawled rows |
| Images.LastSlash | musc/musc.py:113 | the index found holds a `/` and no `/` follows it, or there is no `/` at all |
| Images.Basename | musc/musc.py:113 | the result is the slash-free suffix of the URL after its last `/` |
| Images.Sanitize | musc/musc.py:113 | the result contains only `-`, `_`, `.`, ASCII letters and digits (so no `%` and no `/`), is a subsequence of the input, and keeps every allowed character with its multiplicity |
| Images.SanitizeIdempotent | musc/musc.py:113 | sanitising a sanitised name changes nothing |
| Images.SanitizeKeepsAllowed | musc/musc.py:113 | a name made only of allowed characters is unchanged |
| Images.FileName | musc/musc.py:113 | the file name contains only allowed characters, is a subsequence of the URL's basename, and keeps every allowed character of the basename with its multiplicity |
| Images.Join | musc/musc.py:114 | `os.path.join` ends with its second part; an absolute second part replaces the first, a relative one follows the first and exactly one separator |
| Images.ImagePath | musc/musc.py:114 | the path ends in `images/` followed by the file name |
| Images.ImagePathInjective | musc/musc.py:114-115 | distinct file names give distinct paths, so the existence test is a test on the file name |
| Images.Clamp | musc/musc.py:104 | every wait lies in [4, 60]; a raw delay already in range is kept, one outside it is clamped to the nearer bound |
| Images.RetryFrom | musc/musc.py:104-105 | at most 5 attempts; every attempt before the last raised; the call delivers iff the last attempt did; giving up means exactly 5 attempts; between consecutive attempts one wait, the clamped backoff delay for the attempt just failed |
| Images.GetWithRetry | musc/musc.py:104-105 | one to five attempts with one clamped backoff wait between consecutive ones; a response comes back at the first attempt that gets one, every earlier attempt having raised; otherwise all five attempts raised |
| Images.RetryBound | musc/musc.py:104 | when the first four attempts raise, exactly five attempts and four waits are made, and the result is the fifth attempt's |
| Images.Acquire | musc/musc.py:112-117 | a cache hit changes nothing and returns the path; a miss creates the file and starts exactly one retrieval; the step raises iff it was a miss and all 5 attempts raised |
| Images.Fetch | musc/musc.py:116-117 | a cache miss adds the file and one retrieval; the retrieval raises iff all five attempts raise, and otherwise yields the image path |
| Images.AcquireSucceeds | musc/musc.py:112-117 | an image is obtained iff its file exists already or one of the five attempts gets a response |
| Images.UnnamedImageNeverFetched | musc/musc.py:113-117 | a URL whose basename has no allowed character gets the empty file name; `os.path.exists` holds for the images directory it names, so nothing is fetched and the directory's path is returned |
| Images.AcquireIdempotent | musc/musc.py:115-117 | a second request for a URL with the same file name hits the cache, even after a failed retrieval, so at most one retrieval is made per name |
| Names.TokensOfJoin | musc/musc.py:86 | splitting space-joined words returns the words: `Tokens` inverts `JoinWords` |
| Names.StripCommas | musc/musc.py:86 | the result has no comma, is a subsequence of the token, and keeps every other character with its multiplicity |
| Names.StripTrailingComma | musc/musc.py:86 | a comma-free word followed by a comma loses only the comma |
| Names.SplitName | musc/musc.py:86 | the unpacking succeeds iff the name is present and has at least two tokens; last and first are tokens 0 and 1 with their commas removed and every other character kept, in order and with its multiplicity; otherwise the error gives the token count |
| Names.SplitNameOfWords | musc/musc.py:86 | for words joined by spaces, the last name is the first word and the first name the second; further words are ignored; with fewer than two words the unpacking raises |
| Names.SplitNameSmith | musc/musc.py:86 | "Smith, Jane A." gives last name "Smith" and first name "Jane" |
| Names.SplitNameCher | musc/musc.py:86 | a single-word name makes the unpacking raise |
| Enrich.PredictImageDemographics | musc/musc.py:76-83 | the three fields are all absent when the analyser raised or found no face; otherwise they are the age, dominant gender and dominant race of the first face returned |
| Enrich.EthnicityModelChoice | musc/musc.py:71-74 | the full-name ethnicity model runs exactly when the name's second token has a character other than a comma; otherwise the last-name model runs |
| Enrich.PredictDemographics | musc/musc.py:85-95 | success iff the name splits and the ethnicity model answers; a split failure escapes as is; the result has exactly the five demographic keys; name gender is the guess for the first name and name ethnicity the chosen model's answer; a non-empty image path gives the image prediction's three fields, an absent or empty one absent fields |
| Enrich.RecordRow | musc/musc.py:100-101 | a loaded row has exactly the seven record columns plus `directory_page`, and the record and its letter can be read back from it unchanged |
| Enrich.KeysDisjoint | musc/musc.py:119-123 | record columns, `image_path` and the demographic columns do not overlap |
| Enrich.Merge | musc/musc.py:119-123 | the merged row has exactly the result columns, and every record cell, the image path and every demographic cell survive unchanged |
| Enrich.EnrichRecord | musc/musc.py:119-123 | an absent image path raises; otherwise success iff the name splits and ethnicity answers; the row carries the record's cells, the path, the name gender and the chosen model's ethnicity; a path containing the no-image sentinel gives absent image fields, any other non-empty path the image prediction for that path |
| Pipeline.ProcessRecord | musc/musc.py:109-123 | a row without an image URL raises and fetches nothing; the image file is present afterwards; a cached file means no change; at most that one file is added, with one retrieval per new file; a completed row carries the record's cells and the image path |
| Pipeline.ProcessRecordCompletes | musc/musc.py:109-123 | a row completes iff it has an image URL, its file exists or some attempt gets a response, and its name splits with an answering ethnicity model; an uncached image with five raising attempts escapes as the retrieval error |
| Pipeline.ProcessRecords | musc/musc.py:109-123 | the loop adds only files named by the rows' URLs, with one retrieval per added file; on completion there is one results row per record, in order, and every record's image is present |
| Pipeline.ProcessRecordsRows | musc/musc.py:109-123 | the rows of a completed record loop are the `results` list: record by record, in order, each record enriched with the local path of its image |
| Pipeline.ResultRowsAt | musc/musc.py:119-123 | the `i`-th results row is record `i` enriched with the image path `DATA_DIR/images/<file name>` of its URL, as `EnrichRecord` builds it (name predictions, and image predictions unless the URL names the placeholder) |
| Pipeline.ProcessRecordsFailure | musc/musc.py:109-123 | the record loop raises iff some record is the first that does not get through |
| Pipeline.ProcessRecordsFailsAt | musc/musc.py:109-123 | a loop that raises does so at its first record that does not get through: that record's exception escapes, and the images directory is the one its pass left, on top of the files of the records before it |
| Pipeline.ProcessRecordsReached | musc/musc.py:113-117 | the image file of every record the loop reaches is on disk afterwards, whether or not the loop later raises, because the file is opened before its download starts and is never removed |
| Pipeline.ProcessRecordsCompletes | musc/musc.py:109-123 | the record loop completes iff every record gets through: it has an image URL, its file existed at the start, was fetched for an earlier record or gets a response, and its name can be predicted on |
| Pipeline.AtMostOneRetrievalPerFile | musc/musc.py:112-117 | across the whole loop, retrievals are bounded by the distinct file names not already present |
| Pipeline.ProcessedRowIsEnriched | musc/musc.py:110-123 | a completed row is exactly the merge for the record and the path derived from its URL |
| Pipeline.SentinelUrlPredictsNoImage | musc/musc.py:122 | a photo URL whose basename is `NoImageProvided.png` keeps that name, so its row has no image-based prediction |
| Pipeline.BasenameAfterSlash | musc/musc.py:113 | the basename of `prefix/name`, with a slash-free name, is that name |
| Pipeline.FileNameAfterSlash | musc/musc.py:113 | a URL ending in `/` followed by a name of allowed characters has that name as its file name |
| Pipeline.PathContainsName | musc/musc.py:114 | the image path contains the file name, so the sentinel test at line 122 finds it |
| Pipeline.EnrichPhase | musc/musc.py:97-123 | the second phase ends in `load_data` iff some letter has no file, and then leaves the images untouched; retrievals equal the files added; the run completes iff the load succeeds and every loaded record gets through, and then its rows are the loaded records, in order, each enriched with its image's local path |
| Pipeline.EnrichPhaseRecordFailed | musc/musc.py:102-123 | the second phase ends with a record error iff `load_data` succeeds and some loaded record is the first not to get through |
| Pipeline.EnrichPhaseRaisesAt | musc/musc.py:102-123 | when it does, the script dies with that record's exception, and the images directory holds the files of the records before it and its own file, even if that download raised |
| Pipeline.EnrichPhaseKeepsImages | musc/musc.py:113-117 | however the phase ends, the image file of every loaded record the loop reaches is on disk, so a later run finds it cached |
| Pipeline.RunScript | musc/musc.py:49-126 | the script stops at `load_data` iff some letter's crawl raised and no earlier run had left that letter's file; it then has fetched no image; the files it reads are those of the crawl phase |
| Pipeline.RunScriptCompletes | musc/musc.py:49-126 | the script completes iff loading the crawl phase's files succeeds and every loaded record gets through, and its rows are then the loaded records, in order, each enriched with its image's local path |
| Pipeline.FreshRunNeedsEveryLetter | musc/musc.py:49-102 | a first run on an empty data directory completes only if every letter's crawl succeeded, and then each letter's rows are exactly the rows crawled for it, in order |

## Left out

- Page extraction (`extract_info`, `process_page`, lines 24-47) and the browser: a page's rows, or its failure to load, are inputs to the model.
- The browser is shared across letters: one `driver` (musc/musc.py:22) serves every `driver.get` (musc/musc.py:52). Its state from one letter to the next is not modelled. Each letter's `Listing` is an independent input, so a driver that one letter leaves broken, which would make every later letter raise, shows only if the later listings are given as failing.
- The `time.sleep` calls and the retry waits themselves: only the number of waits and their clamped values are modelled.
- The exact `wait_exponential` formula is a parameter. Only the clamp to [4, 60] is modelled.
- The body of a response is written whatever its status. Only whether some attempt got a response is modelled.
- An attempt that never returns is not modelled: `requests.get` (musc/musc.py:105) has no `timeout`, and `stop_after_attempt(5)` does not bound a single attempt. Every attempt is assumed to return or raise. The "exactly when" of `Images.AcquireSucceeds`, `Pipeline.ProcessRecordCompletes`, `Pipeline.ProcessRecordsCompletes` and `Pipeline.RunScriptCompletes` holds only under this assumption.
- File contents and the streamed copy are left out; only file names are modelled. A failing copy is not modelled either: the retry covers only `requests.get`, so an exception from `open` (musc/musc.py:116) or `shutil.copyfileobj` (musc/musc.py:117) is not retried, leaves a partial file behind and ends the run. `Images.AcquireSucceeds` and `Pipeline.ProcessRecordCompletes` hold only under this omission.
- `os.makedirs` (musc/musc.py:18) creates only `DATA_DIR`; the script never creates `json/` or `images/`. The model assumes both exist. Without them, every partition write (musc/musc.py:62) raises and its letter is skipped, and every cache miss (musc/musc.py:116) raises.
- The pandas JSON round trip is modelled as the identity on rows, and column types are not modelled.
- `to_parquet`: the table itself is the rows of a completed run.
- `traceback.print_exc` is left out. A skipped letter is recorded in the log instead.
- The prediction libraries are opaque functions. The gender guesser is modelled as unable to raise.
- Names.Tokens: its contract says only that each token is a non-empty run without whitespace. Maximality is stated instead by `Names.TokensOfJoin`.
- Crawl.CrawlFrom: its own contract is partial. The exact outcome is stated by `Crawl.CrawlCharacterised`.

=== FILE: base.dfy ===
/** Failure-carrying values shared by every module of the model. */
module Base {

  /** An optional value; Python's `None` is `None` here. */
  datatype Option<+T> = None | Some(value: T)

  /** The outcome of a step that can raise: the value, or the error that escaped. */
  datatype Result<+R, +E> = Success(value: R) | Failure(error: E) {
    predicate IsFailure() {
      Failure?
    }

    function PropagateFailure<U>(): Result<U, E>
      requires Failure?
    {
      Failure(error)
    }

    function Extract(): R
      requires Success?
    {
      value
    }
  }

  /** What an opaque external service gives back: an answer, or an exception. */
  datatype Reply<+T> = Answer(value: T) | Raised
}

=== FILE: crawl.dfy ===
/** The per-letter crawl: read a page, stop when every name on it has been seen, otherwise
    keep the whole page and follow the next-page control while there is one. */
module Crawl {
  import opened Base
  import opened Records
  import Seqs

  /** What the browser shows at one position of the pager: the extracted rows, or a failure
      (navigation, page source or the click that led here raised). */
  datatype PageView = Rows(records: seq<Record>) | LoadError {
    function Contents(): seq<Record> {
      if Rows? then records else []
    }
  }

  /** The pages of one letter's listing, in pager order. Page `i` shows a next-page control
      exactly when `i + 1 < |pages|`. Loading the letter always shows some first page. */
  type Listing = pages: seq<PageView> | |pages| > 0 witness [LoadError]

  /** The exception that ends a letter's crawl. */
  datatype CrawlError = PageLoadFailed(page: nat)

  /** The names present in the accumulated rows (the dedup key is the whole, possibly absent, name). */
  function NamesIn(data: seq<Record>): set<Option<string>> {
    set r | r in data :: r.name
  }

  /** Every row of the page has a name that already occurs in `data`; vacuously true of an empty page. */
  predicate AllSeen(records: seq<Record>, data: seq<Record>) {
    forall r :: r in records ==> r.name in NamesIn(data)
  }

  /** The crawl loop from page `i` with `data` accumulated so far. */
  function CrawlFrom(pages: seq<PageView>, i: nat, data: seq<Record>): (r: Result<seq<Record>, CrawlError>)
    requires i < |pages|
    ensures r.Success? ==> data <= r.value
    ensures r.Failure? ==> i <= r.error.page < |pages| && pages[r.error.page].LoadError?
    decreases |pages| - i
  {
    match pages[i]
    case LoadError => Failure(PageLoadFailed(i))
    case Rows(records) =>
      if AllSeen(records, data) then Success(data)
      else if i + 1 < |pages| then CrawlFrom(pages, i + 1, data + records)
      else Success(data + records)
  }

  /** One letter's crawl, starting on its first page with nothing accumulated. It raises only
      at a page that failed to load; a first page without rows ends it with nothing collected.
      `CrawlCharacterised` gives its exact outcome. */
  function CrawlPartition(pages: Listing): (r: Result<seq<Record>, CrawlError>)
    ensures r.Failure? ==> r.error.page < |pages| && pages[r.error.page].LoadError?
    ensures pages[0].LoadError? ==> r == Failure(PageLoadFailed(0))
    ensures pages[0] == Rows([]) ==> r == Success([])
  {
    CrawlFrom(pages, 0, [])
  }

  // ----- Declarative reference: which pages are accepted, and where the crawl ends -----

  /** The rows accumulated after accepting the first `k` pages, each appended whole. */
  function Accum(pages: seq<PageView>, k: nat): seq<Record>
    requires k <= |pages|
  {
    if k == 0 then [] else Accum(pages, k - 1) + pages[k - 1].Contents()
  }

  /** Page `j` loaded and brought at least one name not among the rows accepted before it. */
  ghost predicate Fresh(pages: seq<PageView>, j: nat)
    requires j < |pages|
  {
    pages[j].Rows? && !AllSeen(pages[j].records, Accum(pages, j))
  }

  /** Each of the first `k` pages is fresh, so the crawl accepted it and moved on. */
  ghost predicate Accepted(pages: seq<PageView>, k: nat)
    requires k <= |pages|
  {
    forall j :: 0 <= j < k ==> Fresh(pages, j)
  }

  /** The crawl accepts exactly the first `k` pages and ends normally: either page `k` repeats
      only seen names, or there is no page after the last accepted one. */
  ghost predicate StopsAt(pages: seq<PageView>, k: nat) {
    && k <= |pages|
    && Accepted(pages, k)
    && (k == |pages| || (pages[k].Rows? && AllSeen(pages[k].records, Accum(pages, k))))
  }

  /** The crawl accepts the first `k` pages and then page `k` fails to load. */
  ghost predicate FailsAt(pages: seq<PageView>, k: nat) {
    k < |pages| && Accepted(pages, k) && pages[k].LoadError?
  }

  lemma AccumStep(pages: seq<PageView>, k: nat)
    requires k < |pages| && pages[k].Rows?
    ensures Accum(pages, k + 1) == Accum(pages, k) + pages[k].records
  {
  }

  /** Accepting one more page extends the accepted prefix. */
  lemma AcceptedExtend(pages: seq<PageView>, k: nat)
    requires k < |pages| && Accepted(pages, k)
    requires pages[k].Rows? && !AllSeen(pages[k].records, Accum(pages, k))
    ensures Accepted(pages, k + 1)
  {
  }

  /** Dropping the last accepted page leaves an accepted prefix. */
  lemma AcceptedShrink(pages: seq<PageView>, k: nat)
    requires 0 < k <= |pages| && Accepted(pages, k)
    ensures Accepted(pages, k - 1)
    ensures Fresh(pages, k - 1)
  {
  }

  lemma NamesAppend(a: seq<Record>, b: seq<Record>)
    ensures NamesIn(a + b) == NamesIn(a) + NamesIn(b)
  {
    forall n | n in NamesIn(a + b) ensures n in NamesIn(a) + NamesIn(b) {
      var r :| r in a + b && r.name == n;
    }
    forall n | n in NamesIn(a) + NamesIn(b) ensures n in NamesIn(a + b) {
      if n in NamesIn(a) {
        var r :| r in a && r.name == n;
        assert r in a + b;
      } else {
        var r :| r in b && r.name == n;
        assert r in a + b;
      }
    }
  }

  /** The crawl from any reachable state ends where the reference says. */
  lemma {:induction false} CrawlSoundFrom(pages: seq<PageView>, i: nat, data: seq<Record>)
    requires i < |pages| && Accepted(pages, i) && data == Accum(pages, i)
    ensures CrawlFrom(pages, i, data).Success? ==>
      exists k :: i <= k <= |pages| && StopsAt(pages, k) && CrawlFrom(pages, i, data).value == Accum(pages, k)
    ensures CrawlFrom(pages, i, data).Failure? ==> FailsAt(pages, CrawlFrom(pages, i, data).error.page)
    decreases |pages| - i
  {
    match pages[i]
    case LoadError =>
      assert FailsAt(pages, i);
    case Rows(records) =>
      if AllSeen(records, data) {
        assert StopsAt(pages, i);
      } else {
        AccumStep(pages, i);
        AcceptedExtend(pages, i);
        if i + 1 < |pages| {
          CrawlSoundFrom(pages, i + 1, data + records);
        } else {
          assert StopsAt(pages, i + 1);
        }
      }
  }

  /** If the reference says the crawl from a reachable state ends normally at `k`, it does. */
  lemma {:induction false} CrawlCompleteFrom(pages: seq<PageView>, i: nat, data: seq<Record>, k: nat)
    requires i <= k && i < |pages| && Accepted(pages, i) && data == Accum(pages, i)
    requires StopsAt(pages, k) || FailsAt(pages, k)
    ensures StopsAt(pages, k) ==> CrawlFrom(pages, i, data) == Success(Accum(pages, k))
    ensures FailsAt(pages, k) ==> CrawlFrom(pages, i, data) == Failure(PageLoadFailed(k))
    decreases |pages| - i
  {
    if i < k {
      assert Fresh(pages, i);
      AccumStep(pages, i);
      AcceptedExtend(pages, i);
      if i + 1 < |pages| {
        CrawlCompleteFrom(pages, i + 1, data + pages[i].records, k);
      }
    }
  }

  /** Complete characterisation of a letter's crawl: it ends normally with the rows of the
      accepted pages in order exactly when the reference says it stops there, and it fails at
      page `k` exactly when the reference says page `k` is the one that failed. */
  lemma CrawlCharacterised(pages: Listing)
    ensures CrawlPartition(pages).Success? ==>
      exists k :: StopsAt(pages, k) && CrawlPartition(pages).value == Accum(pages, k)
    ensures CrawlPartition(pages).Failure? ==> FailsAt(pages, CrawlPartition(pages).error.page)
    ensures forall k :: StopsAt(pages, k) ==> CrawlPartition(pages) == Success(Accum(pages, k))
    ensures forall k :: FailsAt(pages, k) ==> CrawlPartition(pages) == Failure(PageLoadFailed(k))
  {
    CrawlSoundFrom(pages, 0, []);
    forall k | StopsAt(pages, k) || FailsAt(pages, k)
      ensures StopsAt(pages, k) ==> CrawlPartition(pages) == Success(Accum(pages, k))
      ensures FailsAt(pages, k) ==> CrawlPartition(pages) == Failure(PageLoadFailed(k))
    {
      CrawlCompleteFrom(pages, 0, [], k);
    }
  }

  /** The stop decision on a loaded page: the crawl returns what it had, appending nothing,
      exactly when every row of the page repeats a seen name. So an empty page always stops it. */
  lemma StopDecision(pages: seq<PageView>, i: nat, data: seq<Record>)
    requires i < |pages| && pages[i].Rows?
    ensures CrawlFrom(pages, i, data) == Success(data) <==> AllSeen(pages[i].records, data)
    ensures pages[i].records == [] ==> CrawlFrom(pages, i, data) == Success(data)
    ensures !AllSeen(pages[i].records, data) && CrawlFrom(pages, i, data).Success? ==>
      data + pages[i].records <= CrawlFrom(pages, i, data).value
  {
    var records := pages[i].records;
    if !AllSeen(records, data) {
      assert records != [];
    }
  }

  /** A first page with at least one row is always kept, whole and in order, at the head of the output. */
  lemma FirstPageAccepted(pages: Listing)
    requires pages[0].Rows? && pages[0].records != []
    ensures CrawlPartition(pages).Success? ==> pages[0].records <= CrawlPartition(pages).value
  {
    var r := pages[0].records[0];
    assert r in pages[0].records && r.name !in NamesIn([]);
    StopDecision(pages, 0, []);
  }

  /** Each accepted page brings a name not seen before it, so after `k` accepted pages at least
      `k` distinct names have been collected (and the crawl advanced at most once per new name). */
  lemma {:induction false} AcceptedPagesAddNames(pages: seq<PageView>, k: nat)
    requires k <= |pages| && Accepted(pages, k)
    ensures |NamesIn(Accum(pages, k))| >= k
  {
    if k > 0 {
      AcceptedShrink(pages, k);
      AcceptedPagesAddNames(pages, k - 1);
      var before := Accum(pages, k - 1);
      var page := pages[k - 1].records;
      assert pages[k - 1].Rows? && !AllSeen(page, before);
      var r :| r in page && r.name !in NamesIn(before);
      assert Accum(pages, k) == before + page;
      FreshNameGrows(before, page, r);
    }
  }

  /** Appending a page with a name not yet present adds at least one distinct name. */
  lemma FreshNameGrows(before: seq<Record>, page: seq<Record>, r: Record)
    requires r in page && r.name !in NamesIn(before)
    ensures |NamesIn(before + page)| >= |NamesIn(before)| + 1
  {
    var grown := NamesIn(before) + {r.name};
    assert |grown| == |NamesIn(before)| + 1;
    NamesAppend(before, page);
    assert grown <= NamesIn(before + page);
    Seqs.SubsetCardinality(grown, NamesIn(before + page));
  }

  /** A row with only a name, for the scenarios below. */
  function Named(n: string): Record {
    Record(Some(n), None, None, None, None, None, None)
  }

  /** A second page that repeats the first one ends the crawl with the first page's rows only. */
  lemma RepeatedPageEndsCrawl()
    ensures CrawlPartition([Rows([Named("Alice Adams"), Named("Bob Allen")]),
                            Rows([Named("Alice Adams"), Named("Bob Allen")])])
         == Success([Named("Alice Adams"), Named("Bob Allen")])
  {
    var data := [Named("Alice Adams"), Named("Bob Allen")];
    var pages := [Rows(data), Rows(data)];
    assert Named("Alice Adams") in data && Named("Alice Adams").name !in NamesIn([]);
    assert !AllSeen(data, []);
    assert CrawlFrom(pages, 0, []) == CrawlFrom(pages, 1, [] + data);
    assert [] + data == data;
    assert AllSeen(data, data);
  }

  /** A page mixing a seen name with a new one is appended whole, so the output repeats a name. */
  lemma MixedPageKeepsRepeats()
    ensures CrawlPartition([Rows([Named("Alice Adams")]),
                            Rows([Named("Alice Adams"), Named("Bob Allen")])])
         == Success([Named("Alice Adams"), Named("Alice Adams"), Named("Bob Allen")])
  {
    var first := [Named("Alice Adams")];
    var second := [Named("Alice Adams"), Named("Bob Allen")];
    var pages := [Rows(first), Rows(second)];
    assert Named("Alice Adams") in first && Named("Alice Adams").name !in NamesIn([]);
    assert !AllSeen(first, []);
    assert CrawlFrom(pages, 0, []) == CrawlFrom(pages, 1, [] + first);
    assert [] + first == first;
    assert Named("Bob Allen") in second && Named("Bob Allen").name !in NamesIn(first);
    assert !AllSeen(second, first);
    assert CrawlFrom(pages, 1, first) == Success(first + second);
    assert first + second == [Named("Alice Adams"), Named("Alice Adams"), Named("Bob Allen")];
  }

  // ----- The loop as written, checked against the reference -----

  /** The `while True` loop of one letter: read rows, stop on an all-seen page, otherwise
      append the page and click next if there is one. */
  method CrawlLoop(pages: Listing) returns (r: Result<seq<Record>, CrawlError>)
    ensures r.Success? ==> exists k :: StopsAt(pages, k) && r.value == Accum(pages, k)
    ensures r.Failure? ==> FailsAt(pages, r.error.page)
  {
    var i := 0;
    var data: seq<Record> := [];
    while true
      invariant i < |pages| && Accepted(pages, i) && data == Accum(pages, i)
      decreases |pages| - i
    {
      match pages[i]
      case LoadError =>
        assert FailsAt(pages, i);
        return Failure(PageLoadFailed(i));
      case Rows(records) =>
        if AllSeen(records, data) {
          assert StopsAt(pages, i);
          return Success(data);
        }
        AccumStep(pages, i);
        AcceptedExtend(pages, i);
        data := data + records;
        if i + 1 >= |pages| {
          assert StopsAt(pages, i + 1);
          return Success(data);
        }
        i := i + 1;
    }
  }
}

=== FILE: enrich.dfy ===
/** Enrichment of one directory row: the name-based predictions, the image-based prediction
    with its failure isolation, and the merged result row. */
module Enrich {
  import opened Base
  import opened Records
  import opened Names

  /** A cell of the results table. */
  datatype Value = Null | Str(s: string) | Int(i: int)

  /** The columns of the results table. */
  datatype Column =
    | NameCol | ImageCol | CollegeCol | DepartmentCol | RankCol | PhoneCol | EmailCol | DirectoryPageCol
    | ImagePathCol
    | NameGenderCol | NameEthnicityCol | ImageAgeCol | ImageGenderCol | ImageEthnicityCol
  {
    /** The column's name in the written table. */
    function Key(): string {
      match this
      case NameCol => "name"
      case ImageCol => "image"
      case CollegeCol => "college"
      case DepartmentCol => "department"
      case RankCol => "rank"
      case PhoneCol => "phone"
      case EmailCol => "email"
      case DirectoryPageCol => "directory_page"
      case ImagePathCol => "image_path"
      case NameGenderCol => "name_gender"
      case NameEthnicityCol => "name_ethnicity"
      case ImageAgeCol => "image_age"
      case ImageGenderCol => "image_gender"
      case ImageEthnicityCol => "image_ethnicity"
    }
  }

  /** One row of the results table: column |-> cell. */
  type Row = map<Column, Value>

  /** A face DeepFace found: estimated age, dominant gender, dominant race. */
  datatype Face = Face(age: int, gender: string, race: string)

  /** The prediction libraries, as opaque functions: the gender guesser on a first name, the two
      ethnicity models (on last and first name, or on the last name only) and the face analyser on
      an image path. Only the ethnicity models and the face analyser are modelled as able to raise. */
  datatype Services = Services(
    genderOf: string -> string,
    ethnicityByFullName: (string, string) -> Reply<string>,
    ethnicityByLastName: string -> Reply<string>,
    analyze: string -> Reply<seq<Face>>)

  /** The keys `predict_demographics` returns. */
  const DemographicKeys: set<Column> :=
    {NameGenderCol, NameEthnicityCol, ImageAgeCol, ImageGenderCol, ImageEthnicityCol}

  /** The columns of a directory row after `load_data`. */
  const RecordKeys: set<Column> :=
    {NameCol, ImageCol, CollegeCol, DepartmentCol, RankCol, PhoneCol, EmailCol, DirectoryPageCol}

  /** The columns of a results row. */
  const ResultKeys: set<Column> := RecordKeys + {ImagePathCol} + DemographicKeys

  /** The three groups of result columns do not overlap, so the merge overrides nothing. */
  lemma KeysDisjoint()
    ensures forall k :: k in RecordKeys ==> k !in DemographicKeys && k != ImagePathCol
    ensures ImagePathCol !in DemographicKeys
  {
  }

  /** The file name whose presence in an image path means the directory had no photo. */
  const NoImageSentinel: string := "NoImageProvided.png"

  /** `sub` occurs in `s` starting at index `i`. */
  predicate OccursAt(s: string, sub: string, i: int) {
    0 <= i <= |s| - |sub| && s[i..i + |sub|] == sub
  }

  /** Python's substring test `sub in s`. */
  predicate Contains(s: string, sub: string) {
    exists i :: 0 <= i <= |s| - |sub| && OccursAt(s, sub, i)
  }

  function Cell(o: Option<string>): Value {
    match o
    case None => Null
    case Some(s) => Str(s)
  }

  /** The text in a cell, if it holds text. */
  function CellText(v: Value): Option<string> {
    if v.Str? then Some(v.s) else None
  }

  /** Reads a directory row back out of its dictionary; `None` when a column is missing or the
      page cell is not a single letter. */
  function RecordOf(row: Row): Option<TaggedRecord> {
    if RecordKeys <= row.Keys && row[DirectoryPageCol].Str? && |row[DirectoryPageCol].s| == 1 then
      Some(Tagged(
        Record(CellText(row[NameCol]), CellText(row[ImageCol]), CellText(row[CollegeCol]),
          CellText(row[DepartmentCol]), CellText(row[RankCol]), CellText(row[PhoneCol]),
          CellText(row[EmailCol])),
        row[DirectoryPageCol].s[0]))
    else None
  }

  /** A directory row as a dictionary, with its `directory_page` column. Every field of the
      record can be read back from it. */
  function RecordRow(t: TaggedRecord): (row: Row)
    ensures row.Keys == RecordKeys
    ensures RecordOf(row) == Some(t)
  {
    map[NameCol := Cell(t.record.name), ImageCol := Cell(t.record.image),
        CollegeCol := Cell(t.record.college), DepartmentCol := Cell(t.record.department),
        RankCol := Cell(t.record.rank), PhoneCol := Cell(t.record.phone),
        EmailCol := Cell(t.record.email), DirectoryPageCol := Str([t.page])]
  }

  /** Age, gender and ethnicity read off an image. */
  datatype ImageDemographics = ImageDemographics(age: Value, gender: Value, ethnicity: Value)

  const NoImageDemographics := ImageDemographics(Null, Null, Null)

  /** `predict_image_demographics`: the first face's attributes; all three absent when the analyser
      found no face or raised. The three fields are absent or present together. */
  function PredictImageDemographics(svc: Services, path: string): (d: ImageDemographics)
    ensures d == NoImageDemographics <==> (svc.analyze(path).Raised? || svc.analyze(path) == Answer([]))
    ensures d.age == Null <==> d.gender == Null
    ensures d.gender == Null <==> d.ethnicity == Null
    ensures d != NoImageDemographics ==>
      exists face :: face in svc.analyze(path).value &&
        d == ImageDemographics(Int(face.age), Str(face.gender), Str(face.race))
    ensures svc.analyze(path).Answer? && |svc.analyze(path).value| > 0 ==>
      var face := svc.analyze(path).value[0];
      d == ImageDemographics(Int(face.age), Str(face.gender), Str(face.race))
  {
    match svc.analyze(path)
    case Raised => NoImageDemographics
    case Answer(faces) =>
      if |faces| == 0 then NoImageDemographics
      else
        var face := faces[0];
        ImageDemographics(Int(face.age), Str(face.gender), Str(face.race))
  }

  /** `predict_ethnicity`: the full-name model when there is a first name, the last-name model otherwise. */
  function PredictEthnicity(svc: Services, first: string, last: string): Reply<string> {
    if |first| > 0 then svc.ethnicityByFullName(last, first) else svc.ethnicityByLastName(last)
  }

  /** The two unguarded steps of `predict_demographics` succeed on `name`: it splits into at
      least two tokens and the chosen ethnicity model answers. */
  predicate NamePredictable(svc: Services, name: Option<string>) {
    SplitName(name).Success? &&
    PredictEthnicity(svc, SplitName(name).value.first, SplitName(name).value.last).Answer?
  }

  /** `t` has a character other than a comma. */
  predicate HasNonComma(t: string) {
    exists i :: 0 <= i < |t| && t[i] != ','
  }

  /** Which ethnicity model a name reaches: the full-name model exactly when the name's second
      token is not made of commas alone (a lone "," token leaves an empty first name). */
  lemma EthnicityModelChoice(svc: Services, name: string)
    ensures SplitName(Some(name)).Success? ==>
      var parts := SplitName(Some(name)).value;
      PredictEthnicity(svc, parts.first, parts.last) ==
        if HasNonComma(Tokens(name)[1]) then svc.ethnicityByFullName(parts.last, parts.first)
        else svc.ethnicityByLastName(parts.last)
  {
    if SplitName(Some(name)).Success? {
      var parts := SplitName(Some(name)).value;
      var t := Tokens(name)[1];
      if HasNonComma(t) {
        var i :| 0 <= i < |t| && t[i] != ',';
        assert multiset(t)[t[i]] > 0;
        assert multiset(parts.first)[t[i]] > 0;
      }
      if |parts.first| > 0 {
        var c := parts.first[0];
        assert c != ',' by { assert c in parts.first; }
        assert multiset(t)[c] > 0;
        assert c in t;
      }
    }
  }

  /** The three image cells of `row` hold the fields of `image`. */
  predicate ImageCells(row: Row, image: ImageDemographics) {
    && ImageAgeCol in row && row[ImageAgeCol] == image.age
    && ImageGenderCol in row && row[ImageGenderCol] == image.gender
    && ImageEthnicityCol in row && row[ImageEthnicityCol] == image.ethnicity
  }

  /** Why enriching a row raised. */
  datatype EnrichError =
    | NameUnsplittable(cause: NameError)
    | EthnicityFailed
    | ImagePathNotText

  /** `predict_demographics(name, image_path)`. The name split and the ethnicity model are not
      guarded, so their failures escape; the image prediction is guarded and degrades to absent
      fields. An absent or empty path skips the analyser. */
  function PredictDemographics(svc: Services, name: Option<string>, imagePath: Option<string>)
    : (r: Result<Row, EnrichError>)
    ensures r.Success? <==> (SplitName(name).Success? &&
      PredictEthnicity(svc, SplitName(name).value.first, SplitName(name).value.last).Answer?)
    ensures SplitName(name).Failure? ==> r == Failure(NameUnsplittable(SplitName(name).error))
    ensures r.Success? ==> r.value.Keys == DemographicKeys
    ensures r.Success? ==> r.value[NameGenderCol] == Str(svc.genderOf(SplitName(name).value.first))
    ensures r.Success? ==> (r.value[ImageAgeCol] == Null <==> r.value[ImageGenderCol] == Null)
    ensures r.Success? ==> (r.value[ImageGenderCol] == Null <==> r.value[ImageEthnicityCol] == Null)
    ensures r.Success? && (imagePath.None? || imagePath == Some("")) ==>
      r.value[ImageAgeCol] == Null && r.value[ImageGenderCol] == Null && r.value[ImageEthnicityCol] == Null
    ensures r.Success? ==>
      r.value[NameEthnicityCol] == Str(PredictEthnicity(svc, SplitName(name).value.first, SplitName(name).value.last).value)
    ensures r.Success? && imagePath.Some? && |imagePath.value| > 0 ==>
      ImageCells(r.value, PredictImageDemographics(svc, imagePath.value))
  {
    match SplitName(name)
    case Failure(e) => Failure(NameUnsplittable(e))
    case Success(parts) =>
    match PredictEthnicity(svc, parts.first, parts.last)
    case Raised => Failure(EthnicityFailed)
    case Answer(ethnicity) =>
      var image :=
        if imagePath.Some? && |imagePath.value| > 0 then PredictImageDemographics(svc, imagePath.value)
        else NoImageDemographics;
      Success(map[
        NameGenderCol := Str(svc.genderOf(parts.first)),
        NameEthnicityCol := Str(ethnicity),
        ImageAgeCol := image.age,
        ImageGenderCol := image.gender,
        ImageEthnicityCol := image.ethnicity])
  }

  /** The dictionary merge `{**record, **dict(image_path=path), **demographics}`: later
      dictionaries win, but the three key groups are disjoint, so every cell survives. */
  function Merge(record: Row, path: string, demographics: Row): (row: Row)
    requires record.Keys == RecordKeys && demographics.Keys == DemographicKeys
    ensures row.Keys == ResultKeys
    ensures forall k :: k in RecordKeys ==> row[k] == record[k]
    ensures row[ImagePathCol] == Str(path)
    ensures forall k :: k in DemographicKeys ==> row[k] == demographics[k]
  {
    KeysDisjoint();
    record + map[ImagePathCol := Str(path)] + demographics
  }

  /** Builds the results row `{**record, **dict(image_path=...), **predict_demographics(...)}`
      for a row whose image has been handled. Testing the sentinel on an absent path raises
      before anything is predicted; a path containing the sentinel is predicted as "no image". */
  function EnrichRecord(svc: Services, t: TaggedRecord, imagePath: Option<string>): (r: Result<Row, EnrichError>)
    ensures imagePath.None? ==> r == Failure(ImagePathNotText)
    ensures r.Success? ==> r.value.Keys == ResultKeys
    ensures r.Success? ==> forall k :: k in RecordKeys ==> r.value[k] == RecordRow(t)[k]
    ensures r.Success? ==> r.value[ImagePathCol] == Str(imagePath.value)
    ensures r.Success? && Contains(imagePath.value, NoImageSentinel) ==>
      r.value[ImageAgeCol] == Null && r.value[ImageGenderCol] == Null && r.value[ImageEthnicityCol] == Null
    ensures imagePath.Some? ==> (r.Success? <==> (SplitName(t.record.name).Success? &&
      PredictEthnicity(svc, SplitName(t.record.name).value.first, SplitName(t.record.name).value.last).Answer?))
    ensures r.Success? ==> r.value[NameGenderCol] == Str(svc.genderOf(SplitName(t.record.name).value.first))
    ensures r.Success? ==>
      var parts := SplitName(t.record.name).value;
      r.value[NameEthnicityCol] == Str(PredictEthnicity(svc, parts.first, parts.last).value)
    ensures r.Success? && |imagePath.value| > 0 && !Contains(imagePath.value, NoImageSentinel) ==>
      ImageCells(r.value, PredictImageDemographics(svc, imagePath.value))
    ensures r.Success? && imagePath == Some("") ==> ImageCells(r.value, NoImageDemographics)
  {
    if imagePath.None? then Failure(ImagePathNotText)
    else
      var p := imagePath.value;
      var demo :- PredictDemographics(svc, t.record.name, if Contains(p, NoImageSentinel) then None else Some(p));
      Success(Merge(RecordRow(t), p, demo))
  }
}

=== FILE: images.dfy ===
/** Image acquisition: the local file name derived from an image URL, the path under the data
    directory, the existence-based cache, and the bounded retry around the download. */
module Images {
  import opened Base
  import Seqs

  /** The characters a derived file name may keep: `-`, `_`, `.`, ASCII letters and ASCII digits.
      The two `%s` in the source's literal are format placeholders, so `%` is not among them. */
  predicate Allowed(c: char) {
    c == '-' || c == '_' || c == '.' || 'a' <= c <= 'z' || 'A' <= c <= 'Z' || '0' <= c <= '9'
  }

  /** The index of the last `/` in `path`, or -1 when there is none. */
  function LastSlash(path: string): (i: int)
    ensures -1 <= i < |path|
    ensures i >= 0 ==> path[i] == '/'
    ensures forall j :: i < j < |path| ==> path[j] != '/'
    decreases |path|
  {
    if |path| == 0 then -1
    else if path[|path| - 1] == '/' then |path| - 1
    else LastSlash(path[..|path| - 1])
  }

  /** `os.path.basename`: the text after the last `/` (all of it when there is none). */
  function Basename(path: string): (b: string)
    ensures |b| <= |path| && b == path[|path| - |b|..]
    ensures '/' !in b
    ensures |b| < |path| ==> path[|path| - |b| - 1] == '/'
  {
    var b := path[LastSlash(path) + 1..];
    assert forall k :: 0 <= k < |b| ==> b[k] == path[LastSlash(path) + 1 + k];
    b
  }

  /** The characters of `s` that are allowed, in order. */
  function Sanitize(s: string): (f: string)
    ensures forall c :: c in f ==> Allowed(c)
    ensures '%' !in f && '/' !in f
    ensures Seqs.IsSubsequence(f, s) && |f| <= |s|
    ensures forall c :: Allowed(c) ==> multiset(f)[c] == multiset(s)[c]
  {
    var f := Seqs.Filter(s, Allowed);
    Seqs.FilterSpec(s, Allowed);
    Seqs.SubsequenceNotLonger(f, s);
    assert !Allowed('%') && !Allowed('/');
    f
  }

  /** Sanitising a derived name again changes nothing. */
  lemma SanitizeIdempotent(s: string)
    ensures Sanitize(Sanitize(s)) == Sanitize(s)
  {
    Seqs.FilterIdempotent(s, Allowed);
  }

  /** A name made only of allowed characters is its own sanitised form. */
  lemma SanitizeKeepsAllowed(s: string)
    requires forall i :: 0 <= i < |s| ==> Allowed(s[i])
    ensures Sanitize(s) == s
  {
    Seqs.FilterKeepsAll(s, Allowed);
  }

  /** The local file name for an image URL: the sanitised basename. */
  function FileName(url: string): (f: string)
    ensures forall c :: c in f ==> Allowed(c)
    ensures Seqs.IsSubsequence(f, Basename(url)) && |f| <= |Basename(url)|
    ensures forall c :: Allowed(c) ==> multiset(f)[c] == multiset(Basename(url))[c]
  {
    Sanitize(Basename(url))
  }

  /** What `os.path.join` puts in front of a relative part: the directory, followed by one `/`
      unless it is empty or already ends in one. */
  function DirPrefix(dir: string): (p: string)
    ensures p == dir || p == dir + "/"
    ensures |p| == 0 || p[|p| - 1] == '/'
    ensures |p| == 0 <==> |dir| == 0
  {
    if |dir| == 0 || dir[|dir| - 1] == '/' then dir else dir + "/"
  }

  /** `os.path.join` of two POSIX path parts: an absolute second part replaces the first;
      a relative one is appended after exactly one separator. */
  function Join(a: string, b: string): (r: string)
    ensures |r| >= |b| && r[|r| - |b|..] == b
    ensures |b| > 0 && b[0] == '/' ==> r == b
    ensures |b| == 0 || b[0] != '/' ==> r == DirPrefix(a) + b
  {
    if |b| > 0 && b[0] == '/' then b
    else if |a| == 0 || a[|a| - 1] == '/' then a + b
    else a + "/" + b
  }

  /** `DATA_DIR`: the scraper's data directory under the user's home directory. */
  function DataDir(home: string): string {
    Join(home, "data/musc_directory")
  }

  /** Where the image for `filename` is stored: `<dataDir>/images/<filename>`. */
  function ImagePath(dataDir: string, filename: string): (p: string)
    ensures |p| >= |filename| + 7 && p[|p| - |filename| - 7..] == "images/" + filename
  {
    Join(dataDir, "images/" + filename)
  }

  lemma ImagePathShape(dataDir: string, f: string)
    ensures ImagePath(dataDir, f) == DirPrefix(dataDir) + ("images/" + f)
  {
  }

  /** Distinct file names give distinct paths, so the cache can be keyed by file name. */
  lemma ImagePathInjective(dataDir: string, f1: string, f2: string)
    requires ImagePath(dataDir, f1) == ImagePath(dataDir, f2)
    ensures f1 == f2
  {
    var prefix := DirPrefix(dataDir);
    ImagePathShape(dataDir, f1);
    ImagePathShape(dataDir, f2);
    var a := "images/" + f1;
    var b := "images/" + f2;
    assert prefix + a == prefix + b;
    assert a == (prefix + a)[|prefix|..];
    assert b == (prefix + b)[|prefix|..];
    assert f1 == a[7..] && f2 == b[7..];
  }

  // ----- The cache -----

  /** The images directory: the names of the files in it, and how many downloads were started. */
  datatype ImageDir = ImageDir(files: set<string>, retrievals: nat)

  /** `os.path.exists` of the image path. The names "", "." and ".." denote the images directory or
      its parents, which exist whenever the directory does. */
  predicate Present(dir: ImageDir, f: string) {
    f in dir.files || f == "" || f == "." || f == ".."
  }

  // ----- get_with_retry -----

  /** `stop_after_attempt(5)` */
  const MaxAttempts: nat := 5
  /** `wait_exponential(min=4, max=60)` */
  const MinWait: int := 4
  const MaxWait: int := 60

  /** One call of `requests.get`: a response arrived (of any status), or the call raised. Every
      exception is retried, including those a malformed URL raises on each attempt. */
  datatype Attempt = Delivered | Threw

  /** The wait before the next attempt: the raw exponential delay, clamped into [MinWait, MaxWait]. */
  function Clamp(raw: int): (w: int)
    ensures MinWait <= w <= MaxWait
    ensures MinWait <= raw <= MaxWait ==> w == raw
    ensures raw < MinWait ==> w == MinWait
    ensures raw > MaxWait ==> w == MaxWait
  {
    if raw < MinWait then MinWait else if raw > MaxWait then MaxWait else raw
  }

  /** The course of one `get_with_retry` call: whether a response came back, how many attempts
      were made, and the waits slept between them. */
  datatype RetryLog = RetryLog(delivered: bool, attempts: nat, waits: seq<int>)

  /** Attempts `n`, `n + 1`, ... against `net` (attempt number |-> outcome), with `backoff`
      giving the raw delay after a failed attempt. */
  function RetryFrom(net: nat -> Attempt, backoff: nat -> int, n: nat): (log: RetryLog)
    requires 1 <= n <= MaxAttempts
    ensures n <= log.attempts <= MaxAttempts
    ensures |log.waits| == log.attempts - n
    ensures forall w :: w in log.waits ==> MinWait <= w <= MaxWait
    ensures forall k :: n <= k < log.attempts ==> net(k) == Threw
    ensures forall i :: 0 <= i < |log.waits| ==> log.waits[i] == Clamp(backoff(n + i))
    ensures log.delivered <==> net(log.attempts) == Delivered
    ensures !log.delivered ==> log.attempts == MaxAttempts
    decreases MaxAttempts - n
  {
    if net(n) == Delivered then RetryLog(true, n, [])
    else if n == MaxAttempts then RetryLog(false, n, [])
    else
      var rest := RetryFrom(net, backoff, n + 1);
      RetryLog(rest.delivered, rest.attempts, [Clamp(backoff(n))] + rest.waits)
  }

  /** `get_with_retry(url)`: at most five attempts, stopping at the first response. A response
      comes back exactly when one of the first five attempts delivers, and then it is the first
      such attempt's; otherwise all five raised. The waits between attempts are the clamped
      backoff delays. */
  function GetWithRetry(net: nat -> Attempt, backoff: nat -> int): (log: RetryLog)
    ensures 1 <= log.attempts <= MaxAttempts
    ensures |log.waits| == log.attempts - 1
    ensures forall i :: 0 <= i < |log.waits| ==> log.waits[i] == Clamp(backoff(i + 1))
    ensures log.delivered ==> net(log.attempts) == Delivered && forall k :: 1 <= k < log.attempts ==> net(k) == Threw
    ensures !log.delivered ==> forall k :: 1 <= k <= MaxAttempts ==> net(k) == Threw
  {
    var log := RetryFrom(net, backoff, 1);
    assert !log.delivered ==> forall k :: 1 <= k <= MaxAttempts ==> net(k) == Threw by {
      if !log.delivered { assert log.attempts == MaxAttempts; }
    }
    log
  }

  /** A reference that fails four times and then answers is delivered on exactly the fifth
      attempt, after four clamped waits; one that fails five times is given up on. */
  lemma RetryBound(net: nat -> Attempt, backoff: nat -> int)
    requires forall k :: 1 <= k < MaxAttempts ==> net(k) == Threw
    ensures GetWithRetry(net, backoff).attempts == MaxAttempts
    ensures |GetWithRetry(net, backoff).waits| == MaxAttempts - 1
    ensures GetWithRetry(net, backoff).delivered <==> net(MaxAttempts) == Delivered
  {
  }

  // ----- Acquiring one image -----

  /** The retrieval gave up: every attempt raised. */
  datatype FetchError = RetriesExhausted(url: string)

  /** The images directory after handling one URL, and the image path or the escaping error. */
  datatype Acquired = Acquired(dir: ImageDir, path: Result<string, FetchError>)

  /** Handles one image URL: on a cache hit nothing is retrieved; on a miss the file is created
      first and then one `get_with_retry` call fills it, so a failed retrieval leaves the (empty)
      file behind. `net(url, k)` is the outcome of the `k`-th attempt for `url`. */
  function Acquire(dataDir: string, dir: ImageDir, url: string,
                   net: (string, nat) -> Attempt, backoff: nat -> int): (a: Acquired)
    ensures Present(a.dir, FileName(url))
    ensures dir.files <= a.dir.files
    ensures Present(dir, FileName(url)) ==> a.dir == dir && a.path == Success(ImagePath(dataDir, FileName(url)))
    ensures !Present(dir, FileName(url)) ==>
      a.dir.files == dir.files + {FileName(url)} && a.dir.retrievals == dir.retrievals + 1
    ensures a.path.Success? ==> a.path.value == ImagePath(dataDir, FileName(url))
    ensures a.path.Failure? <==>
      !Present(dir, FileName(url)) && forall k :: 1 <= k <= MaxAttempts ==> net(url, k) == Threw
  {
    var f := FileName(url);
    if Present(dir, f) then Acquired(dir, Success(ImagePath(dataDir, f)))
    else Fetch(dataDir, dir, url, net, backoff)
  }

  /** A cache miss: the file is created first, then one `get_with_retry` call fills it. The
      retrieval raises exactly when all five attempts raise. */
  function Fetch(dataDir: string, dir: ImageDir, url: string,
                 net: (string, nat) -> Attempt, backoff: nat -> int): (a: Acquired)
    ensures a.dir == ImageDir(dir.files + {FileName(url)}, dir.retrievals + 1)
    ensures a.path.Success? ==> a.path.value == ImagePath(dataDir, FileName(url))
    ensures a.path.Failure? <==> forall k :: 1 <= k <= MaxAttempts ==> net(url, k) == Threw
  {
    var log := GetWithRetry((k: nat) => net(url, k), backoff);
    if log.delivered then
      assert net(url, log.attempts) == Delivered;
      Acquired(ImageDir(dir.files + {FileName(url)}, dir.retrievals + 1), Success(ImagePath(dataDir, FileName(url))))
    else
      Acquired(ImageDir(dir.files + {FileName(url)}, dir.retrievals + 1), Failure(RetriesExhausted(url)))
  }

  /** Asking again for the same URL, or for any URL whose file name collides with it, is a
      cache hit: nothing is retrieved and the same path comes back, even after a failed retrieval. */
  lemma AcquireIdempotent(dataDir: string, dir: ImageDir, u1: string, u2: string,
                          net: (string, nat) -> Attempt, backoff: nat -> int)
    requires FileName(u1) == FileName(u2)
    ensures var first := Acquire(dataDir, dir, u1, net, backoff);
            var second := Acquire(dataDir, first.dir, u2, net, backoff);
            second.dir == first.dir && second.path == Success(ImagePath(dataDir, FileName(u1))) &&
            second.dir.retrievals <= dir.retrievals + 1
  {
  }

  /** Some attempt of a `get_with_retry` call for `url` gets a response. */
  predicate Delivers(net: (string, nat) -> Attempt, url: string) {
    exists k :: 1 <= k <= MaxAttempts && net(url, k) == Delivered
  }

  /** An image is obtained exactly when its file is cached or one of the five attempts gets a response. */
  lemma AcquireSucceeds(dataDir: string, dir: ImageDir, url: string,
                        net: (string, nat) -> Attempt, backoff: nat -> int)
    ensures Acquire(dataDir, dir, url, net, backoff).path.Success? <==> Present(dir, FileName(url)) || Delivers(net, url)
  {
  }

  /** A URL whose basename has no allowed character gets the empty file name, whose path is the
      images directory itself: it always exists, so nothing is fetched and the directory's path
      is handed on as the image. */
  lemma UnnamedImageNeverFetched(dataDir: string, dir: ImageDir, url: string,
                                 net: (string, nat) -> Attempt, backoff: nat -> int)
    requires forall i :: 0 <= i < |Basename(url)| ==> !Allowed(Basename(url)[i])
    ensures FileName(url) == ""
    ensures Acquire(dataDir, dir, url, net, backoff) == Acquired(dir, Success(ImagePath(dataDir, "")))
  {
    var b := Basename(url);
    var f := FileName(url);
    forall c ensures multiset(f)[c] == 0 {
      if Allowed(c) {
        assert c !in b;
      } else {
        assert c !in f;
      }
    }
    assert multiset(f) == multiset{};
  }
}

=== FILE: names.dfy ===
/** Splitting a display name: Python's `str.split()` and the `last, first, *_` unpacking
    with commas removed from every token. */
module Names {
  import opened Base
  import Seqs

  /** The characters `str.split()` separates on (Python's `str.isspace`). */
  predicate IsSpace(c: char) {
    || c == ' '
    || '\t' <= c <= '\r'
    || '\U{1C}' <= c <= '\U{1F}'
    || c == '\U{85}' || c == '\U{A0}' || c == '\U{1680}'
    || '\U{2000}' <= c <= '\U{200A}'
    || c == '\U{2028}' || c == '\U{2029}' || c == '\U{202F}' || c == '\U{205F}' || c == '\U{3000}'
  }

  /** A token: non-empty, with no whitespace. */
  predicate IsWord(t: string) {
    |t| > 0 && forall i :: 0 <= i < |t| ==> !IsSpace(t[i])
  }

  /** The text from the first non-space character on. */
  function SkipSpace(s: string): (t: string)
    ensures |t| <= |s| && t == s[|s| - |t|..]
    ensures forall i :: 0 <= i < |s| - |t| ==> IsSpace(s[i])
    ensures |t| > 0 ==> !IsSpace(t[0])
    decreases |s|
  {
    if |s| > 0 && IsSpace(s[0]) then SkipSpace(s[1..]) else s
  }

  /** The longest prefix with no space in it. */
  function Word(s: string): (w: string)
    ensures w <= s
    ensures forall i :: 0 <= i < |w| ==> !IsSpace(w[i])
    ensures |w| < |s| ==> IsSpace(s[|w|])
    decreases |s|
  {
    if |s| == 0 || IsSpace(s[0]) then [] else [s[0]] + Word(s[1..])
  }

  /** `str.split()` with no separator: the maximal runs of non-space characters, in order. */
  function Tokens(s: string): (ts: seq<string>)
    ensures forall k :: 0 <= k < |ts| ==> IsWord(ts[k])
    decreases |s|
  {
    var t := SkipSpace(s);
    if |t| == 0 then []
    else
      var w := Word(t);
      [w] + Tokens(t[|w|..])
  }

  /** Words joined with single spaces. */
  function JoinWords(ts: seq<string>): string
    decreases |ts|
  {
    if |ts| == 0 then ""
    else if |ts| == 1 then ts[0]
    else ts[0] + (" " + JoinWords(ts[1..]))
  }

  lemma {:induction false} WordOfPrefix(w: string, rest: string)
    requires IsWord(w)
    requires |rest| == 0 || IsSpace(rest[0])
    ensures Word(w + rest) == w
    decreases |w|
  {
    var s := w + rest;
    assert s[0] == w[0];
    assert s[1..] == w[1..] + rest;
    if |w| > 1 {
      WordOfPrefix(w[1..], rest);
    } else {
      assert w[1..] + rest == rest;
    }
  }

  lemma LeadingSpaceIgnored(s: string)
    ensures Tokens(" " + s) == Tokens(s)
  {
    assert (" " + s)[1..] == s;
    assert SkipSpace(" " + s) == SkipSpace(s);
  }

  /** A word followed by nothing or by a space-led rest is split off as the first token. */
  lemma FirstToken(w: string, rest: string)
    requires IsWord(w)
    requires |rest| == 0 || IsSpace(rest[0])
    ensures Tokens(w + rest) == [w] + Tokens(rest)
  {
    var s := w + rest;
    assert s[0] == w[0];
    assert SkipSpace(s) == s;
    WordOfPrefix(w, rest);
    assert s[|w|..] == rest;
  }

  /** Splitting words joined by spaces gives the words back: `Tokens` inverts `JoinWords`. */
  lemma {:induction false} TokensOfJoin(ts: seq<string>)
    requires forall k :: 0 <= k < |ts| ==> IsWord(ts[k])
    ensures Tokens(JoinWords(ts)) == ts
    decreases |ts|
  {
    if |ts| == 1 {
      FirstToken(ts[0], "");
      assert ts[0] + "" == ts[0];
    } else if |ts| > 1 {
      TokensOfJoin(ts[1..]);
      TokensOfJoinCons(ts);
    }
  }

  /** The inductive step: a word in front of a space and a split-back join is split off first. */
  lemma TokensOfJoinCons(ts: seq<string>)
    requires |ts| > 1 && IsWord(ts[0]) && Tokens(JoinWords(ts[1..])) == ts[1..]
    ensures Tokens(JoinWords(ts)) == ts
  {
    var head, rest := ts[0], ts[1..];
    var tail := JoinWords(rest);
    calc {
      Tokens(JoinWords(ts));
      { assert JoinWords(ts) == head + (" " + tail); }
      Tokens(head + (" " + tail));
      { FirstToken(head, " " + tail); }
      [head] + Tokens(" " + tail);
      { LeadingSpaceIgnored(tail); }
      [head] + rest;
      { assert ts == [head] + rest; }
      ts;
    }
  }

  predicate NotComma(c: char) {
    c != ','
  }

  /** A token with every comma removed (`x.replace(',', '')`). */
  function StripCommas(t: string): (u: string)
    ensures ',' !in u
    ensures Seqs.IsSubsequence(u, t)
    ensures forall c :: c != ',' ==> multiset(u)[c] == multiset(t)[c]
  {
    var u := Seqs.Filter(t, NotComma);
    Seqs.FilterSpec(t, NotComma);
    assert forall c :: c != ',' ==> NotComma(c);
    u
  }

  /** The two names the enrichment uses. */
  datatype NameParts = NameParts(last: string, first: string)

  /** Why the unpacking raised: no name at all (`None.split`), or fewer than two tokens. */
  datatype NameError = NameMissing | TooFewTokens(count: nat)

  /** `last_name, first_name, *_ = map(lambda x: x.replace(',', ''), name.split())`. */
  function SplitName(name: Option<string>): (r: Result<NameParts, NameError>)
    ensures r.Success? <==> name.Some? && |Tokens(name.value)| >= 2
    ensures r.Success? ==>
      && Seqs.IsSubsequence(r.value.last, Tokens(name.value)[0]) && ',' !in r.value.last
      && Seqs.IsSubsequence(r.value.first, Tokens(name.value)[1]) && ',' !in r.value.first
    ensures r.Success? ==> forall c :: c != ',' ==>
      && multiset(r.value.last)[c] == multiset(Tokens(name.value)[0])[c]
      && multiset(r.value.first)[c] == multiset(Tokens(name.value)[1])[c]
    ensures r.Failure? && name.Some? ==> r.error == TooFewTokens(|Tokens(name.value)|)
  {
    match name
    case None => Failure(NameMissing)
    case Some(n) =>
      var ts := Tokens(n);
      if |ts| < 2 then Failure(TooFewTokens(|ts|))
      else Success(NameParts(StripCommas(ts[0]), StripCommas(ts[1])))
  }

  /** For a name written as words separated by spaces, the last name is the first word and the
      first name the second, each without commas; further words are ignored. With fewer than
      two words the unpacking raises. */
  lemma SplitNameOfWords(ts: seq<string>)
    requires forall k :: 0 <= k < |ts| ==> IsWord(ts[k])
    ensures |ts| >= 2 ==> SplitName(Some(JoinWords(ts))) == Success(NameParts(StripCommas(ts[0]), StripCommas(ts[1])))
    ensures |ts| < 2 ==> SplitName(Some(JoinWords(ts))) == Failure(TooFewTokens(|ts|))
  {
    TokensOfJoin(ts);
  }

  /** Printable ASCII other than the space is never whitespace. */
  lemma PrintableWord(t: string)
    requires |t| > 0 && forall i :: 0 <= i < |t| ==> '!' <= t[i] <= '~'
    ensures IsWord(t)
  {
  }

  /** A token without commas is left as it is. */
  lemma StripCommasNoComma(t: string)
    requires forall i :: 0 <= i < |t| ==> t[i] != ','
    ensures StripCommas(t) == t
  {
    Seqs.FilterKeepsAll(t, NotComma);
  }

  /** A trailing comma is dropped. */
  lemma StripTrailingComma(t: string)
    requires forall i :: 0 <= i < |t| ==> t[i] != ','
    ensures StripCommas(t + ",") == t
  {
    Seqs.FilterAppend(t, ",", NotComma);
    StripCommasNoComma(t);
    assert Seqs.Filter(",", NotComma) == [];
  }

  /** "Smith, Jane A." splits into last name "Smith" and first name "Jane". */
  lemma SplitNameSmith()
    ensures SplitName(Some("Smith, Jane A.")) == Success(NameParts("Smith", "Jane"))
  {
    SmithWords();
    SplitNameOfWords(SmithTokens);
    SmithParts();
  }

  lemma SmithParts()
    ensures StripCommas(SmithTokens[0]) == "Smith" && StripCommas(SmithTokens[1]) == "Jane"
  {
    SmithLast();
    StripCommasNoComma("Jane");
  }

  lemma SmithLast()
    ensures StripCommas("Smith,") == "Smith"
  {
    StripTrailingComma("Smith");
    assert "Smith" + "," == "Smith,";
  }

  const SmithTokens: seq<string> := ["Smith,", "Jane", "A."]

  lemma SmithWords()
    ensures forall k :: 0 <= k < |SmithTokens| ==> IsWord(SmithTokens[k])
    ensures JoinWords(SmithTokens) == "Smith, Jane A."
    ensures |SmithTokens| == 3 && SmithTokens[0] == "Smith," && SmithTokens[1] == "Jane"
  {
    PrintableWord("Smith,");
    PrintableWord("Jane");
    PrintableWord("A.");
  }

  /** A single-word name such as "Cher" makes the unpacking raise. */
  lemma SplitNameCher()
    ensures SplitName(Some("Cher")) == Failure(TooFewTokens(1))
  {
    PrintableWord("Cher");
    assert JoinWords(["Cher"]) == "Cher";
    SplitNameOfWords(["Cher"]);
  }
}

=== FILE: partitions.dfy ===
/** The letter-by-letter orchestration of the crawl and `load_data`, which reads the partition
    files back in letter order and tags every row with its letter. */
module Partitions {
  import opened Base
  import opened Records
  import opened Crawl
  import Seqs

  /** The partition files present on disk: letter |-> rows of `json/PAGE_<letter>.json`.
      Files from earlier runs stay until overwritten. */
  type Disk = map<char, seq<Record>>

  /** What the orchestration did for one letter: wrote its file, or printed the traceback and moved on. */
  datatype LetterOutcome = Written(letter: char, data: seq<Record>) | Skipped(letter: char, error: CrawlError)

  /** The files after the crawl phase, and the per-letter log in processing order. */
  datatype CrawlRun = CrawlRun(disk: Disk, log: seq<LetterOutcome>)

  /** Reading a partition file that is not there raises. */
  datatype LoadDataError = MissingPartition(letter: char)

  /** The letters are strictly ascending, hence pairwise distinct. */
  lemma LettersAscending()
    ensures forall i, j :: 0 <= i < j < |Letters| ==> Letters[i] < Letters[j]
  {
    assert forall i :: 0 <= i < |Letters| ==> Letters[i] as int == 'A' as int + i;
  }

  /** The log entry for a letter whose crawl ended with `r`. */
  function Outcome(letter: char, r: Result<seq<Record>, CrawlError>): LetterOutcome {
    match r
    case Success(data) => Written(letter, data)
    case Failure(e) => Skipped(letter, e)
  }

  /** The `n`-th letter does not occur among the letters before it. */
  lemma LetterIsNew(n: nat)
    requires 0 < n <= |Letters|
    ensures Letters[n - 1] !in Letters[..n - 1]
    ensures Letters[..n] == Letters[..n - 1] + [Letters[n - 1]]
  {
    var before := Letters[..n - 1];
    forall j | 0 <= j < |before| ensures before[j] != Letters[n - 1] {
      assert before[j] == Letters[j];
    }
    Seqs.PrefixSnoc(Letters, n);
  }

  /** The log of crawling the first `n` letters in order: entry `i` is the outcome of crawling
      listing `i`. The `try`/`except` around each letter isolates control flow only; the browser
      all letters share is not modelled, so its state cannot carry from one letter to the next. */
  function CrawlLog(listings: seq<Listing>, n: nat): (log: seq<LetterOutcome>)
    requires |listings| == |Letters| && n <= |Letters|
    ensures |log| == n
    ensures forall i :: 0 <= i < n ==> log[i] == Outcome(Letters[i], CrawlPartition(listings[i]))
    decreases n
  {
    if n == 0 then []
    else
      var prev := CrawlLog(listings, n - 1);
      var log := prev + [Outcome(Letters[n - 1], CrawlPartition(listings[n - 1]))];
      assert forall i :: 0 <= i < n - 1 ==> log[i] == prev[i];
      log
  }

  /** The partition files after crawling the first `n` letters in order. A letter whose crawl
      raised writes nothing: the rows it had gathered are dropped, because the file is written
      only after its loop ends. The letters with a file are those that had one before and those
      whose crawl ended normally; `CrawlLettersFiles` gives the contents. */
  function CrawlFiles(disk: Disk, listings: seq<Listing>, n: nat): (d: Disk)
    requires |listings| == |Letters| && n <= |Letters|
    ensures d.Keys == disk.Keys + WrittenLetters(listings, n)
    decreases n
  {
    if n == 0 then disk
    else
      var prev := CrawlFiles(disk, listings, n - 1);
      var r := CrawlPartition(listings[n - 1]);
      if r.Success? then prev[Letters[n - 1] := r.value] else prev
  }

  /** The letters among the first `n` whose crawl ended normally. */
  function WrittenLetters(listings: seq<Listing>, n: nat): set<char>
    requires |listings| == |Letters| && n <= |Letters|
    decreases n
  {
    if n == 0 then {}
    else if CrawlPartition(listings[n - 1]).Success? then WrittenLetters(listings, n - 1) + {Letters[n - 1]}
    else WrittenLetters(listings, n - 1)
  }

  /** The crawl phase over all 26 letters: the files it leaves and its log. */
  function CrawlAll(disk: Disk, listings: seq<Listing>): CrawlRun
    requires |listings| == |Letters|
  {
    CrawlRun(CrawlFiles(disk, listings, |Letters|), CrawlLog(listings, |Letters|))
  }

  /** After the crawl phase, a letter has no file exactly when its crawl raised and no earlier
      run had left its file. */
  lemma MissingAfterCrawl(disk: Disk, listings: seq<Listing>)
    requires |listings| == |Letters|
    ensures forall i :: 0 <= i < |Letters| ==>
      (Letters[i] !in CrawlFiles(disk, listings, |Letters|) <==>
        CrawlPartition(listings[i]).Failure? && Letters[i] !in disk)
  {
    forall i | 0 <= i < |Letters|
      ensures Letters[i] !in CrawlFiles(disk, listings, |Letters|) <==>
        CrawlPartition(listings[i]).Failure? && Letters[i] !in disk
    {
      CrawlLettersFile(disk, listings, |Letters|, i);
    }
  }

  /** One step of the crawl phase changes at most the file of the letter just crawled. */
  lemma CrawlLetterStep(disk: Disk, listings: seq<Listing>, n: nat, c: char)
    requires |listings| == |Letters| && 0 < n <= |Letters| && c != Letters[n - 1]
    ensures c in CrawlFiles(disk, listings, n) <==> c in CrawlFiles(disk, listings, n - 1)
    ensures c in CrawlFiles(disk, listings, n - 1) ==>
      CrawlFiles(disk, listings, n)[c] == CrawlFiles(disk, listings, n - 1)[c]
  {
  }

  /** Letters not yet crawled keep whatever file they had before (or none). */
  lemma {:induction false} CrawlLettersOthers(disk: Disk, listings: seq<Listing>, n: nat, c: char)
    requires |listings| == |Letters| && n <= |Letters| && c !in Letters[..n]
    ensures c in CrawlFiles(disk, listings, n) <==> c in disk
    ensures c in disk ==> CrawlFiles(disk, listings, n)[c] == disk[c]
    decreases n
  {
    if n > 0 {
      LetterIsNew(n);
      assert c != Letters[n - 1] && c !in Letters[..n - 1];
      CrawlLettersOthers(disk, listings, n - 1, c);
      CrawlLetterStep(disk, listings, n, c);
    }
  }

  /** After the first `n` letters, the `i`-th letter's file holds its rows if its crawl succeeded,
      and is what it was before (or still absent) if its crawl raised. */
  lemma {:induction false} CrawlLettersFile(disk: Disk, listings: seq<Listing>, n: nat, i: nat)
    requires |listings| == |Letters| && i < n <= |Letters|
    ensures CrawlPartition(listings[i]).Success? ==>
      Letters[i] in CrawlFiles(disk, listings, n) &&
      CrawlFiles(disk, listings, n)[Letters[i]] == CrawlPartition(listings[i]).value
    ensures CrawlPartition(listings[i]).Failure? ==>
      (Letters[i] in CrawlFiles(disk, listings, n) <==> Letters[i] in disk) &&
      (Letters[i] in disk ==> CrawlFiles(disk, listings, n)[Letters[i]] == disk[Letters[i]])
    decreases n
  {
    var c := Letters[i];
    if i == n - 1 {
      LetterIsNew(n);
      CrawlLettersOthers(disk, listings, n - 1, c);
    } else {
      LetterIsNew(n);
      assert Letters[..n - 1][i] == c;
      CrawlLettersFile(disk, listings, n - 1, i);
      CrawlLetterStep(disk, listings, n, c);
    }
  }

  /** Failure isolation on disk: after the first `n` letters, a letter whose crawl succeeded has
      exactly its rows in its file; a letter whose crawl raised still has whatever file it had
      before (or none); no other file is touched. */
  lemma CrawlLettersFiles(disk: Disk, listings: seq<Listing>, n: nat)
    requires |listings| == |Letters| && n <= |Letters|
    ensures forall i :: 0 <= i < n && CrawlPartition(listings[i]).Success? ==>
      Letters[i] in CrawlFiles(disk, listings, n) &&
      CrawlFiles(disk, listings, n)[Letters[i]] == CrawlPartition(listings[i]).value
    ensures forall i :: 0 <= i < n && CrawlPartition(listings[i]).Failure? ==>
      (Letters[i] in CrawlFiles(disk, listings, n) <==> Letters[i] in disk) &&
      (Letters[i] in disk ==> CrawlFiles(disk, listings, n)[Letters[i]] == disk[Letters[i]])
    ensures forall c :: c !in Letters[..n] ==>
      (c in CrawlFiles(disk, listings, n) <==> c in disk) &&
      (c in disk ==> CrawlFiles(disk, listings, n)[c] == disk[c])
  {
    forall i | 0 <= i < n {
      CrawlLettersFile(disk, listings, n, i);
    }
    forall c | c !in Letters[..n] {
      CrawlLettersOthers(disk, listings, n, c);
    }
  }

  /** The tagged rows of one partition file, in file order. */
  function Tag(rows: seq<Record>, letter: char): (t: seq<TaggedRecord>)
    ensures |t| == |rows|
    ensures forall j :: 0 <= j < |t| ==> t[j].record == rows[j] && t[j].page == letter
  {
    seq(|rows|, j requires 0 <= j < |rows| => Tagged(rows[j], letter))
  }

  /** Number of rows in the files of the first `n` letters (absent files count zero). */
  function RowCount(disk: Disk, n: nat): nat
    requires n <= |Letters|
  {
    if n == 0 then 0
    else RowCount(disk, n - 1) + (if Letters[n - 1] in disk then |disk[Letters[n - 1]]| else 0)
  }

  /** `load_data` restricted to the first `n` letters. */
  function LoadLetters(disk: Disk, n: nat): (r: Result<seq<TaggedRecord>, LoadDataError>)
    requires n <= |Letters|
    ensures r.Success? <==> forall i :: 0 <= i < n ==> Letters[i] in disk
    ensures r.Failure? ==> exists i :: 0 <= i < n && Letters[i] == r.error.letter && Letters[i] !in disk &&
                                       (forall j :: 0 <= j < i ==> Letters[j] in disk)
    ensures r.Success? ==> |r.value| == RowCount(disk, n)
    ensures r.Success? ==> forall j :: 0 <= j < |r.value| ==> r.value[j].page in Letters[..n]
    decreases n
  {
    if n == 0 then Success([])
    else
      var prev :- LoadLetters(disk, n - 1);
      var c := Letters[n - 1];
      if c !in disk then Failure(MissingPartition(c)) else Success(prev + Tag(disk[c], c))
  }

  /** `load_data`: every letter's file, A to Z, each row tagged with its `directory_page`. */
  function LoadData(disk: Disk): Result<seq<TaggedRecord>, LoadDataError> {
    LoadLetters(disk, |Letters|)
  }

  /** The rows tagged with `letter`, in order and untagged. */
  function Select(out: seq<TaggedRecord>, letter: char): seq<Record>
    decreases |out|
  {
    if |out| == 0 then []
    else Select(out[..|out| - 1], letter) + (if out[|out| - 1].page == letter then [out[|out| - 1].record] else [])
  }

  lemma {:induction false} SelectAppend(a: seq<TaggedRecord>, b: seq<TaggedRecord>, letter: char)
    ensures Select(a + b, letter) == Select(a, letter) + Select(b, letter)
    decreases |b|
  {
    if |b| > 0 {
      var last := b[|b| - 1];
      var tail := if last.page == letter then [last.record] else [];
      assert (a + b)[..|a + b| - 1] == a + b[..|b| - 1];
      assert (a + b)[|a + b| - 1] == last;
      assert Select(a + b, letter) == Select(a + b[..|b| - 1], letter) + tail;
      assert Select(b, letter) == Select(b[..|b| - 1], letter) + tail;
      SelectAppend(a, b[..|b| - 1], letter);
    } else {
      assert a + b == a;
    }
  }

  lemma {:induction false} SelectTag(rows: seq<Record>, tag: char, letter: char)
    ensures Select(Tag(rows, tag), letter) == if tag == letter then rows else []
    decreases |rows|
  {
    if |rows| > 0 {
      var init := rows[..|rows| - 1];
      assert Tag(rows, tag)[..|rows| - 1] == Tag(init, tag);
      SelectTag(init, tag, letter);
      assert rows == init + [rows[|rows| - 1]];
    }
  }

  /** Loading then selecting one letter gives back that letter's file exactly, in order; letters
      not yet loaded select nothing. So no row is lost, duplicated, reordered or mis-tagged. */
  lemma {:induction false} LoadThenSelect(disk: Disk, n: nat, letter: char)
    requires n <= |Letters| && LoadLetters(disk, n).Success?
    ensures letter in Letters[..n] ==> letter in disk && Select(LoadLetters(disk, n).value, letter) == disk[letter]
    ensures letter !in Letters[..n] ==> Select(LoadLetters(disk, n).value, letter) == []
    decreases n
  {
    if n > 0 {
      var c := Letters[n - 1];
      var prev := LoadLetters(disk, n - 1).value;
      var out := LoadLetters(disk, n).value;
      assert out == prev + Tag(disk[c], c);
      LoadThenSelect(disk, n - 1, letter);
      SelectAppend(prev, Tag(disk[c], c), letter);
      SelectTag(disk[c], c, letter);
      LetterIsNew(n);
      if letter == c {
        assert Select(prev, letter) == [];
        assert Select(out, letter) == [] + disk[c];
      } else {
        assert letter in Letters[..n] <==> letter in Letters[..n - 1];
        assert Select(out, letter) == Select(prev, letter) + [];
      }
    }
  }

  /** The rows come out grouped by letter in A-Z order: tags never decrease along the output. */
  lemma {:induction false} LoadOrdered(disk: Disk, n: nat)
    requires n <= |Letters| && LoadLetters(disk, n).Success?
    ensures forall a, b :: 0 <= a < b < |LoadLetters(disk, n).value| ==>
      LoadLetters(disk, n).value[a].page <= LoadLetters(disk, n).value[b].page
    decreases n
  {
    if n > 0 {
      LettersAscending();
      LoadOrdered(disk, n - 1);
      var c := Letters[n - 1];
      var prev := LoadLetters(disk, n - 1).value;
      var out := LoadLetters(disk, n).value;
      assert out == prev + Tag(disk[c], c);
      forall j | 0 <= j < |prev| ensures prev[j].page < c {
        var i :| 0 <= i < n - 1 && Letters[i] == prev[j].page;
      }
    }
  }

  /** On a fresh data directory, one letter whose crawl raised makes `load_data` raise: its
      file was never written. */
  lemma FailedLetterBreaksFreshLoad(listings: seq<Listing>, i: nat)
    requires |listings| == |Letters| && i < |Letters|
    requires CrawlPartition(listings[i]).Failure?
    ensures LoadData(CrawlAll(map[], listings).disk).Failure?
  {
    CrawlLettersFiles(map[], listings, |Letters|);
  }

  /** When `load_data` succeeds after a first crawl on an empty data directory, every letter's
      crawl succeeded and each letter's loaded rows are exactly the rows crawled for it, in order. */
  lemma FreshLoadRecoversCrawl(listings: seq<Listing>)
    requires |listings| == |Letters|
    ensures LoadData(CrawlAll(map[], listings).disk).Success? ==>
      forall i :: 0 <= i < |Letters| ==> (CrawlPartition(listings[i]).Success? &&
        Select(LoadData(CrawlAll(map[], listings).disk).value, Letters[i]) == CrawlPartition(listings[i]).value)
  {
    forall i | 0 <= i < |Letters| {
      FreshLetterRecovered(listings, i);
    }
  }

  lemma FreshLetterRecovered(listings: seq<Listing>, i: nat)
    requires |listings| == |Letters| && i < |Letters|
    ensures LoadLetters(CrawlFiles(map[], listings, |Letters|), |Letters|).Success? ==>
      CrawlPartition(listings[i]).Success? &&
      Select(LoadLetters(CrawlFiles(map[], listings, |Letters|), |Letters|).value, Letters[i])
        == CrawlPartition(listings[i]).value
  {
    var d := CrawlFiles(map[], listings, |Letters|);
    if LoadLetters(d, |Letters|).Success? {
      CrawlLettersFile(map[], listings, |Letters|, i);
      assert Letters[i] in d;
      assert Letters[..|Letters|][i] == Letters[i];
      LoadThenSelect(d, |Letters|, Letters[i]);
    }
  }
}

=== FILE: pipeline.dfy ===
/** The script end to end: crawl every letter, load the partition files back, then for each row
    fetch its image (once per file name) and enrich it. */
module Pipeline {
  import opened Base
  import opened Records
  import opened Crawl
  import opened Partitions
  import opened Images
  import opened Enrich
  import Seqs

  /** What the script depends on outside its own logic: the user's home directory, the prediction
      libraries, the network (URL and attempt number |-> outcome) and the raw backoff schedule. */
  datatype Env = Env(home: string, svc: Services, net: (string, nat) -> Attempt, backoff: nat -> int)

  /** An exception that ends the record loop, and with it the script. */
  datatype RunError = FetchFailed(fetch: FetchError) | EnrichFailed(enrich: EnrichError)

  /** The images directory after one row, and that row's result or the escaping error. */
  datatype Step = Step(dir: ImageDir, row: Result<Row, RunError>)

  /** One pass of the record loop. A row without an image URL gets no path, and the sentinel
      test on that absent path raises. `ProcessRecordCompletes` says when the row completes. */
  function ProcessRecord(env: Env, dir: ImageDir, t: TaggedRecord): (s: Step)
    ensures dir.files <= s.dir.files
    ensures t.record.image.None? ==> s == Step(dir, Failure(EnrichFailed(ImagePathNotText)))
    ensures t.record.image.Some? ==> Present(s.dir, FileName(t.record.image.value))
    ensures t.record.image.Some? && Present(dir, FileName(t.record.image.value)) ==> s.dir == dir
    ensures s.dir.files - dir.files <= (if t.record.image.Some? then {FileName(t.record.image.value)} else {})
    ensures s.dir.retrievals == dir.retrievals + |s.dir.files - dir.files|
    ensures s.row.Success? ==> RowOf(s.row.value, t) && HasImageIn(s.dir, t)
    ensures s.row.Success? ==> s.row.value[ImagePathCol] == Str(ImagePath(DataDir(env.home), FileName(t.record.image.value)))
  {
    match t.record.image
    case None =>
      Step(dir, Failure(EnrichFailed(ImagePathNotText)))
    case Some(url) =>
      var a := Acquire(DataDir(env.home), dir, url, env.net, env.backoff);
      var f := FileName(url);
      assert a.dir.files - dir.files == if Present(dir, f) then {} else {f} - dir.files;
      Step(a.dir, RowFor(env.svc, t, a.path))
  }

  /** The row once the image has been handled: the retrieval's error, or the record enriched
      with the image path. */
  function RowFor(svc: Services, t: TaggedRecord, path: Result<string, FetchError>): (r: Result<Row, RunError>)
    ensures r.Success? ==> path.Success? && RowOf(r.value, t) && r.value[ImagePathCol] == Str(path.value)
  {
    match path
    case Failure(e) => Failure(FetchFailed(e))
    case Success(p) =>
      match EnrichRecord(svc, t, Some(p))
      case Failure(e) => Failure(EnrichFailed(e))
      case Success(row) => Success(row)
  }

  /** A row completes exactly when it has an image URL, its image is cached or a retrieval gets
      a response, and its name can be predicted on. When every attempt raises on an uncached
      image, the retrieval error is what escapes. */
  lemma ProcessRecordCompletes(env: Env, dir: ImageDir, t: TaggedRecord)
    ensures ProcessRecord(env, dir, t).row.Success? <==>
      && t.record.image.Some?
      && (Present(dir, FileName(t.record.image.value)) || Delivers(env.net, t.record.image.value))
      && NamePredictable(env.svc, t.record.name)
    ensures (t.record.image.Some? && !Present(dir, FileName(t.record.image.value)) &&
             !Delivers(env.net, t.record.image.value)) ==>
      ProcessRecord(env, dir, t).row == Failure(FetchFailed(RetriesExhausted(t.record.image.value)))
  {
    if t.record.image.Some? {
      AcquireSucceeds(DataDir(env.home), dir, t.record.image.value, env.net, env.backoff);
    }
  }

  /** The image files named by the rows that have an image URL. */
  function ImageFiles(records: seq<TaggedRecord>): set<string> {
    set i | 0 <= i < |records| && records[i].record.image.Some? :: FileName(records[i].record.image.value)
  }

  /** What the record loop leaves: the images directory, and the result rows or the error that
      stopped it (the rows built before it are lost with the process). */
  datatype Processed = Processed(dir: ImageDir, rows: Result<seq<Row>, RunError>)

  /** `row` is the results row of `t`: all result columns, with `t`'s own cells carried over. */
  predicate RowOf(row: Row, t: TaggedRecord) {
    row.Keys == ResultKeys && forall k :: k in RecordKeys ==> row[k] == RecordRow(t)[k]
  }

  /** One results row per record, in the records' order: the i-th row is the results row of the i-th record. */
  predicate RowsOf(rows: seq<Row>, records: seq<TaggedRecord>)
    decreases |records|
  {
    |rows| == |records| && (|rows| == 0 || (RowOf(rows[0], records[0]) && RowsOf(rows[1..], records[1..])))
  }

  /** The results row the script builds for `t`: `t` enriched with the local path of its image.
      It is only consulted for records that get through, so the empty row standing in for a
      raising enrichment never appears in a completed table. */
  function ResultRow(env: Env, t: TaggedRecord): Row {
    if t.record.image.None? then map[]
    else
      match EnrichRecord(env.svc, t, Some(ImagePath(DataDir(env.home), FileName(t.record.image.value))))
      case Success(row) => row
      case Failure(_) => map[]
  }

  /** The results rows of `records`, in order (`ResultRowsAt` gives the indexed form). */
  function ResultRows(env: Env, records: seq<TaggedRecord>): (rows: seq<Row>)
    ensures |rows| == |records|
    decreases |records|
  {
    if |records| == 0 then [] else [ResultRow(env, records[0])] + ResultRows(env, records[1..])
  }

  /** The `i`-th results row is record `i`'s. */
  lemma {:induction false} ResultRowsAt(env: Env, records: seq<TaggedRecord>, i: nat)
    requires i < |records|
    ensures ResultRows(env, records)[i] == ResultRow(env, records[i])
    decreases i
  {
    if i > 0 {
      ResultRowsAt(env, records[1..], i - 1);
      assert records[1..][i - 1] == records[i];
    }
  }

  /** Every record has an image URL whose file is present. */
  predicate ImagesPresent(dir: ImageDir, records: seq<TaggedRecord>) {
    forall i :: 0 <= i < |records| ==> HasImageIn(dir, records[i])
  }

  predicate HasImageIn(dir: ImageDir, t: TaggedRecord) {
    t.record.image.Some? && Present(dir, FileName(t.record.image.value))
  }

  /** Record `i` of the loop started on `dir` gets through: it has an image URL whose file was
      there at the start, was fetched for an earlier record, or is delivered now, and its name
      can be predicted on. */
  predicate Servable(env: Env, dir: ImageDir, records: seq<TaggedRecord>, i: nat)
    requires i < |records|
  {
    var t := records[i];
    && t.record.image.Some?
    && NamePredictable(env.svc, t.record.name)
    && (|| Present(dir, FileName(t.record.image.value))
        || FileName(t.record.image.value) in ImageFiles(records[..i])
        || Delivers(env.net, t.record.image.value))
  }

  /** The record loop over `records`, in order, stopping at the first exception. When it completes,
      there is one results row per record, in order, and every record had an image that is now on
      disk; `ProcessRecordsCompletes` says when it does. */
  function ProcessRecords(env: Env, dir: ImageDir, records: seq<TaggedRecord>): (out: Processed)
    ensures dir.files <= out.dir.files
    ensures out.dir.files - dir.files <= ImageFiles(records)
    ensures out.dir.retrievals == dir.retrievals + |out.dir.files - dir.files|
    ensures out.rows.Success? ==> RowsOf(out.rows.value, records)
    ensures out.rows.Success? ==> ImagesPresent(out.dir, records)
    decreases |records|
  {
    if |records| == 0 then Processed(dir, Success([]))
    else
      var step := ProcessRecord(env, dir, records[0]);
      match step.row
      case Failure(e) =>
        assert records[0].record.image.Some? ==> FileName(records[0].record.image.value) in ImageFiles(records);
        Processed(step.dir, Failure(e))
      case Success(row) =>
        var rest := ProcessRecords(env, step.dir, records[1..]);
        ProcessRecordsStep(env, dir, records, step.dir, rest.dir);
        if rest.rows.Success? then
          assert ([row] + rest.rows.value)[1..] == rest.rows.value;
          PresentCons(step.dir, rest.dir, records);
          Processed(rest.dir, Success([row] + rest.rows.value))
        else
          Processed(rest.dir, rest.rows)
  }

  /** The record loop completes exactly when every record gets through: the script stops at the
      first record without an image URL, with an unsplittable name, whose ethnicity model raises,
      or whose uncached image gets no response in five attempts. */
  lemma {:induction false} ProcessRecordsCompletes(env: Env, dir: ImageDir, records: seq<TaggedRecord>)
    ensures ProcessRecords(env, dir, records).rows.Success? <==>
      forall i :: 0 <= i < |records| ==> Servable(env, dir, records, i)
    decreases |records|
  {
    if |records| > 0 {
      var step := ProcessRecord(env, dir, records[0]);
      ServableFirst(env, dir, records);
      ProcessRecordsUnfold(env, dir, records);
      if step.row.Success? {
        var tail := records[1..];
        ProcessRecordsCompletes(env, step.dir, tail);
        ServableShift(env, dir, records, step.dir);
        if forall i :: 0 <= i < |records| ==> Servable(env, dir, records, i) {
          forall j | 0 <= j < |tail| ensures Servable(env, step.dir, tail, j) {
            assert Servable(env, dir, records, j + 1);
          }
        } else {
          var i :| 0 <= i < |records| && !Servable(env, dir, records, i);
          assert !Servable(env, step.dir, tail, i - 1);
        }
      }
    }
  }

  /** A completed record loop has, for each record in order, that record enriched with the local
      path of its image: the `results` list of the script. */
  lemma {:induction false} ProcessRecordsRows(env: Env, dir: ImageDir, records: seq<TaggedRecord>)
    ensures ProcessRecords(env, dir, records).rows.Success? ==>
      ProcessRecords(env, dir, records).rows.value == ResultRows(env, records)
    decreases |records|
  {
    if |records| > 0 && ProcessRecords(env, dir, records).rows.Success? {
      var step := ProcessRecord(env, dir, records[0]);
      ProcessRecordsSplit(env, dir, records);
      ProcessRecordsRows(env, step.dir, records[1..]);
      FirstRowEnriched(env, dir, records[0]);
    }
  }

  lemma FirstRowEnriched(env: Env, dir: ImageDir, t: TaggedRecord)
    requires ProcessRecord(env, dir, t).row.Success?
    ensures ProcessRecord(env, dir, t).row.value == ResultRow(env, t)
  {
    ProcessedRowIsEnriched(env, dir, t);
  }

  /** Every record before record `i` gets through, so the loop reaches record `i`. */
  predicate ServableBefore(env: Env, dir: ImageDir, records: seq<TaggedRecord>, i: nat)
    requires i <= |records|
  {
    forall j :: 0 <= j < i ==> Servable(env, dir, records, j)
  }

  /** Record `k` is the first that does not get through, so the loop raises at it. */
  predicate FirstUnservable(env: Env, dir: ImageDir, records: seq<TaggedRecord>, k: nat) {
    && k < |records|
    && !Servable(env, dir, records, k)
    && ServableBefore(env, dir, records, k)
  }

  /** The pass over record `k`, from the images directory the records before it left. */
  function PassAt(env: Env, dir: ImageDir, records: seq<TaggedRecord>, k: nat): Step
    requires k < |records|
  {
    ProcessRecord(env, ProcessRecords(env, dir, records[..k]).dir, records[k])
  }

  /** A loop that raises does so at its first record that does not get through: the exception
      of that record's pass escapes, and the images directory is the one that pass left, with
      every file created before it (including one whose download then raised) still there. */
  lemma {:induction false} ProcessRecordsFailsAt(env: Env, dir: ImageDir, records: seq<TaggedRecord>, k: nat)
    requires FirstUnservable(env, dir, records, k)
    ensures PassAt(env, dir, records, k).row.Failure?
    ensures ProcessRecords(env, dir, records) ==
      Processed(PassAt(env, dir, records, k).dir, Failure(PassAt(env, dir, records, k).row.error))
    decreases k, 1
  {
    if k == 0 {
      RaisesAtFirst(env, dir, records);
    } else {
      RaisesAtLater(env, dir, records, k);
    }
  }

  /** The base case of `ProcessRecordsFailsAt`: the first record does not get through. */
  lemma RaisesAtFirst(env: Env, dir: ImageDir, records: seq<TaggedRecord>)
    requires |records| > 0 && !Servable(env, dir, records, 0)
    ensures PassAt(env, dir, records, 0).row.Failure?
    ensures ProcessRecords(env, dir, records) ==
      Processed(PassAt(env, dir, records, 0).dir, Failure(PassAt(env, dir, records, 0).row.error))
  {
    ServableFirst(env, dir, records);
    assert records[..0] == [];
    ProcessRecordsFirstFails(env, dir, records);
  }

  /** The inductive step of `ProcessRecordsFailsAt`: the first record gets through, and the rest
      of the loop raises at its record `k - 1`. */
  lemma {:induction false} RaisesAtLater(env: Env, dir: ImageDir, records: seq<TaggedRecord>, k: nat)
    requires 0 < k && FirstUnservable(env, dir, records, k)
    ensures PassAt(env, dir, records, k).row.Failure?
    ensures ProcessRecords(env, dir, records) ==
      Processed(PassAt(env, dir, records, k).dir, Failure(PassAt(env, dir, records, k).row.error))
    decreases k, 0
  {
    ServablePrefixShift(env, dir, records, k);
    UnservableShift(env, dir, records, k);
    ProcessRecordsFailsAt(env, ProcessRecord(env, dir, records[0]).dir, records[1..], k - 1);
    ProcessRecordsAfterFirst(env, dir, records);
    PassAtShift(env, dir, records, k);
  }

  /** After a completed first pass, record `k - 1` of the rest does not get through when record
      `k` of the whole loop does not. */
  lemma UnservableShift(env: Env, dir: ImageDir, records: seq<TaggedRecord>, k: nat)
    requires 0 < k < |records| && ProcessRecord(env, dir, records[0]).row.Success?
    requires !Servable(env, dir, records, k)
    ensures !Servable(env, ProcessRecord(env, dir, records[0]).dir, records[1..], k - 1)
  {
    ServableShift(env, dir, records, ProcessRecord(env, dir, records[0]).dir);
  }

  /** Once the first record gets through, the pass over record `k` is the pass over record
      `k - 1` of the rest of the loop, started where the first pass left the directory. */
  lemma PassAtShift(env: Env, dir: ImageDir, records: seq<TaggedRecord>, k: nat)
    requires 0 < k < |records| && ProcessRecord(env, dir, records[0]).row.Success?
    ensures PassAt(env, dir, records, k) ==
      PassAt(env, ProcessRecord(env, dir, records[0]).dir, records[1..], k - 1)
  {
    PrefixShape(records, k);
    ProcessRecordsAfterFirst(env, dir, records[..k]);
  }

  lemma PrefixShape<T>(s: seq<T>, k: nat)
    requires 0 < k < |s|
    ensures s[..k][0] == s[0] && s[..k][1..] == s[1..][..k - 1] && s[1..][k - 1] == s[k]
  {
  }

  /** The loop raises exactly when some record is the first not to get through. */
  lemma ProcessRecordsFailure(env: Env, dir: ImageDir, records: seq<TaggedRecord>)
    ensures ProcessRecords(env, dir, records).rows.Failure? <==>
      exists k: nat :: FirstUnservable(env, dir, records, k)
  {
    ProcessRecordsCompletes(env, dir, records);
    if ProcessRecords(env, dir, records).rows.Failure? {
      SomeFirstUnservable(env, dir, records);
    }
  }

  lemma SomeFirstUnservable(env: Env, dir: ImageDir, records: seq<TaggedRecord>)
    requires !forall i :: 0 <= i < |records| ==> Servable(env, dir, records, i)
    ensures exists k: nat :: FirstUnservable(env, dir, records, k)
  {
    var i :| 0 <= i < |records| && !Servable(env, dir, records, i);
    LeastUnservable(env, dir, records, i);
  }

  /** Below a record that does not get through there is a first one. */
  lemma {:induction false} LeastUnservable(env: Env, dir: ImageDir, records: seq<TaggedRecord>, i: nat)
    requires i < |records| && !Servable(env, dir, records, i)
    ensures exists k: nat :: k <= i && FirstUnservable(env, dir, records, k)
    decreases i
  {
    if !FirstUnservable(env, dir, records, i) {
      var j :| 0 <= j < i && !Servable(env, dir, records, j);
      LeastUnservable(env, dir, records, j);
    }
  }

  /** The image file of a record the loop reaches (every record before it got through) is on
      disk afterwards, whether or not the loop then raises: the file is created before its
      download starts, and nothing removes it. */
  lemma {:induction false} ProcessRecordsReached(env: Env, dir: ImageDir, records: seq<TaggedRecord>, i: nat)
    requires i < |records| && records[i].record.image.Some?
    requires ServableBefore(env, dir, records, i)
    ensures HasImageIn(ProcessRecords(env, dir, records).dir, records[i])
    decreases i, 1
  {
    if i == 0 {
      ReachedFirst(env, dir, records);
    } else {
      ReachedAfterFirst(env, dir, records, i);
    }
  }

  /** The inductive step of `ProcessRecordsReached`: the first record gets through, and the rest
      of the loop reaches record `i - 1` of the rest. */
  lemma {:induction false} ReachedAfterFirst(env: Env, dir: ImageDir, records: seq<TaggedRecord>, i: nat)
    requires 0 < i < |records| && records[i].record.image.Some?
    requires ServableBefore(env, dir, records, i)
    ensures HasImageIn(ProcessRecords(env, dir, records).dir, records[i])
    decreases i, 0
  {
    ServablePrefixShift(env, dir, records, i);
    ImageOfTail(records, i);
    ProcessRecordsReached(env, ProcessRecord(env, dir, records[0]).dir, records[1..], i - 1);
    ReachedLater(env, dir, records, i);
  }

  lemma ImageOfTail(records: seq<TaggedRecord>, i: nat)
    requires 0 < i < |records| && records[i].record.image.Some?
    ensures records[1..][i - 1].record.image.Some?
  {
    assert records[1..][i - 1] == records[i];
  }

  /** The first record's file is on disk after the loop. */
  lemma ReachedFirst(env: Env, dir: ImageDir, records: seq<TaggedRecord>)
    requires |records| > 0 && records[0].record.image.Some?
    ensures HasImageIn(ProcessRecords(env, dir, records).dir, records[0])
  {
    var step := ProcessRecord(env, dir, records[0]);
    if step.row.Failure? {
      ProcessRecordsFirstFails(env, dir, records);
    } else {
      ProcessRecordsAfterFirst(env, dir, records);
      PresentMono(step.dir, ProcessRecords(env, step.dir, records[1..]).dir, FileName(records[0].record.image.value));
    }
  }

  /** A later record's file is on disk after the loop when it is after the rest of the loop. */
  lemma ReachedLater(env: Env, dir: ImageDir, records: seq<TaggedRecord>, i: nat)
    requires 0 < i < |records| && records[i].record.image.Some?
    requires ProcessRecord(env, dir, records[0]).row.Success?
    requires HasImageIn(ProcessRecords(env, ProcessRecord(env, dir, records[0]).dir, records[1..]).dir, records[1..][i - 1])
    ensures HasImageIn(ProcessRecords(env, dir, records).dir, records[i])
  {
    assert records[1..][i - 1] == records[i];
    ProcessRecordsAfterFirst(env, dir, records);
  }

  /** When the records before `i` get through, the first pass completes and the records before
      `i - 1` of the rest get through from the directory it left. */
  lemma ServablePrefixShift(env: Env, dir: ImageDir, records: seq<TaggedRecord>, i: nat)
    requires 0 < i <= |records|
    requires ServableBefore(env, dir, records, i)
    ensures ProcessRecord(env, dir, records[0]).row.Success?
    ensures ServableBefore(env, ProcessRecord(env, dir, records[0]).dir, records[1..], i - 1)
  {
    var step := ProcessRecord(env, dir, records[0]);
    ServableFirst(env, dir, records);
    ServableShift(env, dir, records, step.dir);
    forall j | 0 <= j < i - 1 ensures Servable(env, step.dir, records[1..], j) {
      assert Servable(env, dir, records, j + 1);
    }
  }

  lemma PresentMono(a: ImageDir, b: ImageDir, f: string)
    requires a.files <= b.files && Present(a, f)
    ensures Present(b, f)
  {
  }

  /** A first pass that raises ends the loop with its directory and its exception. */
  lemma ProcessRecordsFirstFails(env: Env, dir: ImageDir, records: seq<TaggedRecord>)
    requires |records| > 0 && ProcessRecord(env, dir, records[0]).row.Failure?
    ensures ProcessRecords(env, dir, records) ==
      Processed(ProcessRecord(env, dir, records[0]).dir, Failure(ProcessRecord(env, dir, records[0]).row.error))
  {
  }

  /** After a completed first pass the loop leaves the directory the rest of the loop leaves,
      and raises what the rest raises. */
  lemma ProcessRecordsAfterFirst(env: Env, dir: ImageDir, records: seq<TaggedRecord>)
    requires |records| > 0 && ProcessRecord(env, dir, records[0]).row.Success?
    ensures var rest := ProcessRecords(env, ProcessRecord(env, dir, records[0]).dir, records[1..]);
      && ProcessRecords(env, dir, records).dir == rest.dir
      && (rest.rows.Failure? ==> ProcessRecords(env, dir, records) == rest)
  {
  }

  /** A completed loop over a non-empty sequence of records is the first pass's row followed by
      the rows of the loop over the rest. */
  lemma ProcessRecordsSplit(env: Env, dir: ImageDir, records: seq<TaggedRecord>)
    requires |records| > 0 && ProcessRecords(env, dir, records).rows.Success?
    ensures var step := ProcessRecord(env, dir, records[0]);
      && step.row.Success?
      && ProcessRecords(env, step.dir, records[1..]).rows.Success?
      && ProcessRecords(env, dir, records).rows.value ==
         [step.row.value] + ProcessRecords(env, step.dir, records[1..]).rows.value
  {
  }

  /** The loop over a non-empty sequence of records completes exactly when the first pass and
      then the loop over the rest, from the directory that pass left, complete. */
  lemma ProcessRecordsUnfold(env: Env, dir: ImageDir, records: seq<TaggedRecord>)
    requires |records| > 0
    ensures var step := ProcessRecord(env, dir, records[0]);
      ProcessRecords(env, dir, records).rows.Success? <==>
        step.row.Success? && ProcessRecords(env, step.dir, records[1..]).rows.Success?
  {
  }

  /** The first record gets through exactly when its own pass completes. */
  lemma ServableFirst(env: Env, dir: ImageDir, records: seq<TaggedRecord>)
    requires |records| > 0
    ensures Servable(env, dir, records, 0) <==> ProcessRecord(env, dir, records[0]).row.Success?
  {
    assert records[..0] == [];
    ProcessRecordCompletes(env, dir, records[0]);
  }

  /** After a completed first pass, record `j + 1` of the loop from `dir` gets through exactly
      when record `j` of the rest of the loop, from the directory that pass left, does. */
  lemma ServableShift(env: Env, dir: ImageDir, records: seq<TaggedRecord>, mid: ImageDir)
    requires |records| > 0 && ProcessRecord(env, dir, records[0]).row.Success?
    requires mid == ProcessRecord(env, dir, records[0]).dir
    ensures forall j :: 0 <= j < |records| - 1 ==>
      (Servable(env, mid, records[1..], j) <==> Servable(env, dir, records, j + 1))
  {
    var f0 := FileName(records[0].record.image.value);
    PresentAfterPass(env, dir, records[0]);
    forall j | 0 <= j < |records| - 1
      ensures Servable(env, mid, records[1..], j) <==> Servable(env, dir, records, j + 1)
    {
      ServableShiftAt(env, dir, records, mid, j);
    }
  }

  /** The files present after a completed pass are those present before and the pass's own file. */
  lemma PresentAfterPass(env: Env, dir: ImageDir, t: TaggedRecord)
    requires ProcessRecord(env, dir, t).row.Success?
    ensures t.record.image.Some?
    ensures forall f :: Present(ProcessRecord(env, dir, t).dir, f) <==>
      Present(dir, f) || f == FileName(t.record.image.value)
  {
    PresentGrows(dir, ProcessRecord(env, dir, t).dir, FileName(t.record.image.value));
  }

  lemma PresentGrows(dir: ImageDir, mid: ImageDir, f0: string)
    requires dir.files <= mid.files && mid.files - dir.files <= {f0} && Present(mid, f0)
    ensures forall f :: Present(mid, f) <==> Present(dir, f) || f == f0
  {
    forall f ensures Present(mid, f) <==> Present(dir, f) || f == f0 {
      if f in mid.files && f !in dir.files {
        assert f in mid.files - dir.files;
      }
    }
  }

  lemma ServableShiftAt(env: Env, dir: ImageDir, records: seq<TaggedRecord>, mid: ImageDir, j: nat)
    requires j + 1 < |records| && records[0].record.image.Some?
    requires forall f :: Present(mid, f) <==> Present(dir, f) || f == FileName(records[0].record.image.value)
    ensures Servable(env, mid, records[1..], j) <==> Servable(env, dir, records, j + 1)
  {
    assert records[1..][j] == records[j + 1];
    ImageFilesCons(records, j);
  }

  /** The files named before record `j + 1` are the first record's and those named before
      record `j` of the rest. */
  lemma ImageFilesCons(records: seq<TaggedRecord>, j: nat)
    requires j < |records| && records[0].record.image.Some?
    ensures ImageFiles(records[..j + 1]) == {FileName(records[0].record.image.value)} + ImageFiles(records[1..][..j])
  {
    var a := records[..j + 1];
    var b := records[1..][..j];
    assert a[0] == records[0];
    forall m | 0 <= m < |b| ensures a[m + 1] == b[m] {
    }
    forall f | f in ImageFiles(a) ensures f in {FileName(records[0].record.image.value)} + ImageFiles(b) {
      var i :| 0 <= i < |a| && a[i].record.image.Some? && f == FileName(a[i].record.image.value);
      if i > 0 {
        assert b[i - 1] == a[i];
      }
    }
    forall f | f in ImageFiles(b) ensures f in ImageFiles(a) {
      var i :| 0 <= i < |b| && b[i].record.image.Some? && f == FileName(b[i].record.image.value);
      assert a[i + 1] == b[i];
    }
  }

  lemma PresentCons(mid: ImageDir, last: ImageDir, records: seq<TaggedRecord>)
    requires |records| > 0 && mid.files <= last.files
    requires HasImageIn(mid, records[0]) && ImagesPresent(last, records[1..])
    ensures ImagesPresent(last, records)
  {
    forall i | 0 <= i < |records| ensures HasImageIn(last, records[i]) {
      if i > 0 {
        assert records[1..][i - 1] == records[i];
      }
    }
  }

  /** Bookkeeping for one step of `ProcessRecords`: new files and retrievals add up. */
  lemma ProcessRecordsStep(env: Env, dir: ImageDir, records: seq<TaggedRecord>, mid: ImageDir, last: ImageDir)
    requires |records| > 0
    requires dir.files <= mid.files <= last.files
    requires mid.files - dir.files <= (if records[0].record.image.Some? then {FileName(records[0].record.image.value)} else {})
    requires mid.retrievals == dir.retrievals + |mid.files - dir.files|
    requires last.files - mid.files <= ImageFiles(records[1..])
    requires last.retrievals == mid.retrievals + |last.files - mid.files|
    ensures last.files - dir.files <= ImageFiles(records)
    ensures last.retrievals == dir.retrievals + |last.files - dir.files|
  {
    assert last.files - dir.files == (mid.files - dir.files) + (last.files - mid.files);
    assert (mid.files - dir.files) * (last.files - mid.files) == {};
    forall f | f in ImageFiles(records[1..]) ensures f in ImageFiles(records) {
      var i :| 0 <= i < |records[1..]| && records[1..][i].record.image.Some? &&
        f == FileName(records[1..][i].record.image.value);
      assert records[i + 1] == records[1..][i];
    }
    if records[0].record.image.Some? {
      assert FileName(records[0].record.image.value) in ImageFiles(records);
    }
  }

  /** Across a whole run, at most one retrieval per distinct image file name: rows sharing a URL,
      or URLs whose names collide, are downloaded once, and files already present never again. */
  lemma AtMostOneRetrievalPerFile(env: Env, dir: ImageDir, records: seq<TaggedRecord>)
    ensures ProcessRecords(env, dir, records).dir.retrievals <= dir.retrievals + |ImageFiles(records)|
    ensures ProcessRecords(env, dir, records).dir.retrievals <= dir.retrievals + |ImageFiles(records) - dir.files|
  {
    var out := ProcessRecords(env, dir, records);
    Seqs.SubsetCardinality(out.dir.files - dir.files, ImageFiles(records));
    Seqs.SubsetCardinality(out.dir.files - dir.files, ImageFiles(records) - dir.files);
  }

  /** An image URL whose basename is the sentinel file keeps that name through sanitising, so its
      row carries no image-based prediction. */
  lemma SentinelUrlPredictsNoImage(env: Env, dir: ImageDir, t: TaggedRecord, prefix: string)
    requires t.record.image == Some(prefix + "/" + NoImageSentinel)
    ensures ProcessRecord(env, dir, t).row.Success? ==>
      var row := ProcessRecord(env, dir, t).row.value;
      row[ImageAgeCol] == Null && row[ImageGenderCol] == Null && row[ImageEthnicityCol] == Null
  {
    SentinelIsFileName();
    var url := prefix + "/" + NoImageSentinel;
    FileNameAfterSlash(prefix, NoImageSentinel);
    var p := ImagePath(DataDir(env.home), NoImageSentinel);
    PathContainsName(DataDir(env.home), NoImageSentinel);
    ProcessedRowIsEnriched(env, dir, t);
  }

  /** A completed row was enriched with the image path derived from its URL. */
  lemma ProcessedRowIsEnriched(env: Env, dir: ImageDir, t: TaggedRecord)
    ensures ProcessRecord(env, dir, t).row.Success? ==> t.record.image.Some?
    ensures ProcessRecord(env, dir, t).row.Success? ==>
      EnrichRecord(env.svc, t, Some(ImagePath(DataDir(env.home), FileName(t.record.image.value)))).Success?
    ensures ProcessRecord(env, dir, t).row.Success? ==>
      EnrichRecord(env.svc, t, Some(ImagePath(DataDir(env.home), FileName(t.record.image.value)))).value
        == ProcessRecord(env, dir, t).row.value
  {
    if ProcessRecord(env, dir, t).row.Success? {
      var url := t.record.image.value;
      var a := Acquire(DataDir(env.home), dir, url, env.net, env.backoff);
      assert a.path.Success?;
      assert a.path.value == ImagePath(DataDir(env.home), FileName(url));
    }
  }

  lemma SentinelIsFileName()
    ensures '/' !in NoImageSentinel
    ensures forall i :: 0 <= i < |NoImageSentinel| ==> Allowed(NoImageSentinel[i])
  {
  }

  /** A URL ending in `/` followed by a clean name keeps exactly that name. */
  lemma FileNameAfterSlash(prefix: string, b: string)
    requires '/' !in b && forall i :: 0 <= i < |b| ==> Allowed(b[i])
    ensures FileName(prefix + "/" + b) == b
  {
    BasenameAfterSlash(prefix, b);
    SanitizeKeepsAllowed(b);
  }

  /** The image path contains its file name. */
  lemma PathContainsName(dataDir: string, f: string)
    ensures Contains(ImagePath(dataDir, f), f)
  {
    var p := ImagePath(dataDir, f);
    assert OccursAt(p, f, |p| - |f|);
  }

  /** The basename of a path ending in `/` followed by a slash-free name is that name. */
  lemma BasenameAfterSlash(prefix: string, b: string)
    requires '/' !in b
    ensures Basename(prefix + "/" + b) == b
  {
    var path := prefix + "/" + b;
    assert path[|prefix|] == '/';
    forall j | |prefix| < j < |path| ensures path[j] != '/' {
      assert path[j] == b[j - |prefix| - 1];
    }
    var i := LastSlash(path);
    assert i == |prefix|;
    assert path[i + 1..] == b;
  }

  // ----- The whole script -----

  /** How a run of the script ended: `load_data` raised on a missing partition file, the record
      loop raised, or every row was enriched and the table written. */
  datatype RunOutcome = LoadFailed(load: LoadDataError) | RecordFailed(error: RunError) | Completed(rows: seq<Row>)

  /** What the second phase leaves: the images directory, and how the run ended. */
  datatype Enriched = Enriched(images: ImageDir, outcome: RunOutcome)

  /** The second phase over the partition files `files`: `load_data`, then the record loop over
      the images directory `dir`. */
  function EnrichPhase(env: Env, files: Disk, dir: ImageDir): (e: Enriched)
    ensures e.outcome.LoadFailed? <==> exists i :: 0 <= i < |Letters| && Letters[i] !in files
    ensures e.outcome.LoadFailed? ==> e.images == dir
    ensures dir.files <= e.images.files
    ensures e.images.retrievals - dir.retrievals == |e.images.files - dir.files|
    ensures e.outcome.Completed? ==>
      LoadData(files).Success? && RowsOf(e.outcome.rows, LoadData(files).value)
    ensures e.outcome.Completed? <==>
      (LoadData(files).Success? &&
       forall i :: 0 <= i < |LoadData(files).value| ==> Servable(env, dir, LoadData(files).value, i))
    ensures e.outcome.Completed? ==> e.outcome.rows == ResultRows(env, LoadData(files).value)
  {
    match LoadData(files)
    case Failure(error) => Enriched(dir, LoadFailed(error))
    case Success(records) => EnrichRecords(env, dir, records)
  }

  /** The record loop over loaded records, as the second phase reports it. */
  function EnrichRecords(env: Env, dir: ImageDir, records: seq<TaggedRecord>): (e: Enriched)
    ensures !e.outcome.LoadFailed?
    ensures dir.files <= e.images.files
    ensures e.images.retrievals - dir.retrievals == |e.images.files - dir.files|
    ensures e.outcome.Completed? ==> RowsOf(e.outcome.rows, records)
    ensures e.outcome.Completed? <==> forall i :: 0 <= i < |records| ==> Servable(env, dir, records, i)
    ensures e.outcome.Completed? ==> e.outcome.rows == ResultRows(env, records)
  {
    var out := ProcessRecords(env, dir, records);
    ProcessRecordsCompletes(env, dir, records);
    ProcessRecordsRows(env, dir, records);
    match out.rows
    case Failure(error) => Enriched(out.dir, RecordFailed(error))
    case Success(rows) => Enriched(out.dir, Completed(rows))
  }

  /** The record loop raises exactly when the partition files load and some loaded record is
      the first not to get through. */
  lemma EnrichPhaseRecordFailed(env: Env, files: Disk, dir: ImageDir)
    ensures EnrichPhase(env, files, dir).outcome.RecordFailed? <==>
      LoadData(files).Success? && exists k: nat :: FirstUnservable(env, dir, LoadData(files).value, k)
  {
    if LoadData(files).Success? {
      ProcessRecordsFailure(env, dir, LoadData(files).value);
    }
  }

  /** When the record loop raises at loaded record `k`, the script dies with the exception of
      that record's pass, and the images directory is the one that pass left: the files of the
      records before it, and its own file even when its download then raised. */
  lemma EnrichPhaseRaisesAt(env: Env, files: Disk, dir: ImageDir, k: nat)
    requires LoadData(files).Success? && FirstUnservable(env, dir, LoadData(files).value, k)
    ensures PassAt(env, dir, LoadData(files).value, k).row.Failure?
    ensures EnrichPhase(env, files, dir) == Enriched(PassAt(env, dir, LoadData(files).value, k).dir,
      RecordFailed(PassAt(env, dir, LoadData(files).value, k).row.error))
  {
    ProcessRecordsFailsAt(env, dir, LoadData(files).value, k);
  }

  /** However the phase ends, the image file of every loaded record the loop reaches is on disk
      afterwards, so a later run finds it cached. */
  lemma EnrichPhaseKeepsImages(env: Env, files: Disk, dir: ImageDir, i: nat)
    requires LoadData(files).Success? && i < |LoadData(files).value|
    requires LoadData(files).value[i].record.image.Some?
    requires ServableBefore(env, dir, LoadData(files).value, i)
    ensures HasImageIn(EnrichPhase(env, files, dir).images, LoadData(files).value[i])
  {
    ProcessRecordsReached(env, dir, LoadData(files).value, i);
  }

  /** The partition files and letter log the crawl phase left, the images directory after the
      record loop, and how the run ended. */
  datatype Run = Run(crawl: CrawlRun, images: ImageDir, outcome: RunOutcome)

  /** The script: the crawl phase over `listings` (one per letter) on top of the files `disk`
      already holds, then the second phase on the files it leaves. Whatever the crawl did, the
      second phase runs, and it stops at `load_data` exactly when some letter's crawl raised and
      no earlier run had left that letter's file. */
  function RunScript(env: Env, disk: Disk, dir: ImageDir, listings: seq<Listing>): (run: Run)
    requires |listings| == |Letters|
    ensures run.outcome.LoadFailed? <==>
      exists i :: 0 <= i < |Letters| && CrawlPartition(listings[i]).Failure? && Letters[i] !in disk
    ensures run.outcome.LoadFailed? ==> run.images == dir
    ensures dir.files <= run.images.files
    ensures run.crawl.disk == CrawlFiles(disk, listings, |Letters|)
  {
    MissingAfterCrawl(disk, listings);
    var crawl := CrawlAll(disk, listings);
    var e := EnrichPhase(env, crawl.disk, dir);
    Run(crawl, e.images, e.outcome)
  }

  /** The script completes exactly when `load_data` succeeds on the files the crawl phase left
      and every loaded record gets through the record loop; the table it writes then holds, for
      each loaded record in order, that record enriched with the local path of its image. */
  lemma RunScriptCompletes(env: Env, disk: Disk, dir: ImageDir, listings: seq<Listing>)
    requires |listings| == |Letters|
    ensures var loaded := LoadData(CrawlFiles(disk, listings, |Letters|));
      RunScript(env, disk, dir, listings).outcome.Completed? <==>
        loaded.Success? && forall j :: 0 <= j < |loaded.value| ==> Servable(env, dir, loaded.value, j)
    ensures RunScript(env, disk, dir, listings).outcome.Completed? ==>
      RunScript(env, disk, dir, listings).outcome.rows ==
        ResultRows(env, LoadData(CrawlFiles(disk, listings, |Letters|)).value)
  {
  }

  /** A first run, on an empty data directory, completes only if every letter's crawl succeeded;
      its table then holds each letter's crawled rows in letter order, tagged with that letter. */
  lemma FreshRunNeedsEveryLetter(env: Env, dir: ImageDir, listings: seq<Listing>)
    requires |listings| == |Letters|
    ensures RunScript(env, map[], dir, listings).outcome.Completed? ==>
      forall i :: 0 <= i < |Letters| ==> (CrawlPartition(listings[i]).Success? &&
        Select(LoadData(RunScript(env, map[], dir, listings).crawl.disk).value, Letters[i]) ==
          CrawlPartition(listings[i]).value)
  {
    FreshLoadRecoversCrawl(listings);
  }
}

=== FILE: records.dfy ===
/** The directory row as the scraper extracts it, and the partition key space. */
module Records {
  import opened Base

  /** One row of the faculty directory. Every field is the text of its cell,
      or `None` when the cell is missing; `image` is the `src` of the photo. */
  datatype Record = Record(
    name: Option<string>,
    image: Option<string>,
    college: Option<string>,
    department: Option<string>,
    rank: Option<string>,
    phone: Option<string>,
    email: Option<string>)

  /** A row read back from its partition file, carrying the letter it was listed under. */
  datatype TaggedRecord = Tagged(record: Record, page: char)

  /** The upper-case ASCII letters from the `k`-th one on. */
  function LettersFrom(k: nat): (s: string)
    requires k <= 26
    ensures |s| == 26 - k
    ensures forall i :: 0 <= i < |s| ==> s[i] as int == 'A' as int + k + i
    decreases 26 - k
  {
    if k == 26 then [] else [('A' as int + k) as char] + LettersFrom(k + 1)
  }

  /** The partitions of the directory: one listing per upper-case ASCII letter (`string.ascii_uppercase`),
      crawled in this order, "ABCDEFGHIJKLMNOPQRSTUVWXYZ". */
  const Letters: string := LettersFrom(0)
}

=== FILE: seqs.dfy ===
/** Sequence helpers: filtering, the subsequence order, and set sizes. */
module Seqs {

  /** `a` can be obtained from `b` by deleting elements, keeping the order of the rest. */
  predicate IsSubsequence<T(==)>(a: seq<T>, b: seq<T>)
    decreases |b|
  {
    if |a| == 0 then true
    else if |b| == 0 then false
    else if a[0] == b[0] then IsSubsequence(a[1..], b[1..])
    else IsSubsequence(a, b[1..])
  }

  lemma {:induction false} SubsequenceNotLonger<T>(a: seq<T>, b: seq<T>)
    requires IsSubsequence(a, b)
    ensures |a| <= |b|
    decreases |b|
  {
    if |a| > 0 {
      if a[0] == b[0] {
        SubsequenceNotLonger(a[1..], b[1..]);
      } else {
        SubsequenceNotLonger(a, b[1..]);
      }
    }
  }

  /** The elements of `s` that satisfy `keep`, in their original order (a comprehension filter). */
  function Filter<T>(s: seq<T>, keep: T -> bool): seq<T>
    decreases |s|
  {
    if |s| == 0 then []
    else if keep(s[0]) then [s[0]] + Filter(s[1..], keep)
    else Filter(s[1..], keep)
  }

  /** What a filter keeps: only passing elements, in order, and every passing element as often
      as it occurs in the input. */
  lemma {:induction false} FilterSpec<T(!new)>(s: seq<T>, keep: T -> bool)
    ensures forall x :: x in Filter(s, keep) ==> keep(x)
    ensures IsSubsequence(Filter(s, keep), s)
    ensures forall x :: keep(x) ==> multiset(Filter(s, keep))[x] == multiset(s)[x]
    decreases |s|
  {
    if |s| > 0 {
      assert s == [s[0]] + s[1..];
      FilterSpec(s[1..], keep);
    }
  }

  /** Filtering keeps a sequence whose every element passes. */
  lemma {:induction false} FilterKeepsAll<T(!new)>(s: seq<T>, keep: T -> bool)
    requires forall x :: x in s ==> keep(x)
    ensures Filter(s, keep) == s
    decreases |s|
  {
    if |s| > 0 {
      FilterKeepsAll(s[1..], keep);
    }
  }

  /** Filtering distributes over concatenation. */
  lemma {:induction false} FilterAppend<T(!new)>(a: seq<T>, b: seq<T>, keep: T -> bool)
    ensures Filter(a + b, keep) == Filter(a, keep) + Filter(b, keep)
    decreases |a|
  {
    if |a| > 0 {
      assert (a + b)[1..] == a[1..] + b;
      FilterAppend(a[1..], b, keep);
    } else {
      assert a + b == b;
    }
  }

  /** Filtering twice with the same test is filtering once. */
  lemma FilterIdempotent<T(!new)>(s: seq<T>, keep: T -> bool)
    ensures Filter(Filter(s, keep), keep) == Filter(s, keep)
  {
    FilterSpec(s, keep);
    FilterKeepsAll(Filter(s, keep), keep);
  }

  /** A prefix is the shorter prefix followed by one more element. */
  lemma PrefixSnoc<T>(s: seq<T>, n: nat)
    requires 0 < n <= |s|
    ensures s[..n] == s[..n - 1] + [s[n - 1]]
  {
  }

  /** A subset of a finite set is no larger than the set. */
  lemma SubsetCardinality<T>(a: set<T>, b: set<T>)
    requires a <= b
    ensures |a| <= |b|
  {
    assert b == a + (b - a);
    assert a * (b - a) == {};
  }
}
